=== FILE: README.md ===
# HTB MCP client: a Dafny model of its data logic

`htb_mcp_client.py` is a terminal client for the Hack The Box MCP server. It
lists CTF events, teams and challenges, lets the user select one of each, and
runs tools with JSON arguments. Around the user interface and the network
session it holds four pieces of plain data logic. This project models them
over a small JSON datatype and proves what they guarantee:

- **Argument templates** (`template.dfy`, module `Template`). The tool screen
  pre-fills its argument editor from the tool's input schema. Each declared
  property gets one value, chosen by the first rule that applies, in this
  order: a pinned auto-exec argument, the selected event's id, the selected
  challenge's id, the schema `default`, then a placeholder for the declared
  type. Ids are coerced with `int()` (0 on failure) or `str()`.
- **Result extraction and tables** (`extract.dfy`, module `Extract`).
  - The text blocks of a tool result are concatenated and decoded.
  - The challenge screen reads either the decoded dict's `challenges` field
    or a decoded list.
  - The team and event screens wrap a decoded non-list as a one-element
    list.
  - A result without a list `content` gives the empty text.
  - Every dict entry gets a table row, keyed by `str()` of its position. An
    entry without an `id` still gets a row, with an empty id cell. Entries
    that are not dicts get no row.
  - The tool name decides which screen a result opens.
- **Markdown** (`markdown.dfy`, module `Markdown`).
  - The recursive JSON-to-Markdown renderer of the result screen.
  - The challenge detail panel with its "Additional Details" filter.
  - The Markdown file the event screen saves.
- **Selection state** (`state.dfy`, module `AppState`).
  - Defaults, with the state file's dict merged over them by `dict.update`.
  - `save_app_state`, which writes back exactly four entries.
  - The Play-button rule and the Select buttons.
  - The merge of auto-exec arguments into the editor's JSON.
  - Names of saved artifacts.

Shared pieces:
- `json.dfy` (module `JsonValue`) holds the JSON datatype and Python dict
  semantics. An object is an ordered sequence of key/value pairs:
  - lookup finds the first pair with the key;
  - assignment replaces that pair in place or appends a new one;
  - `update` assigns the argument's pairs in order.
- `pytext.dfy` (module `PyText`) holds the parts of `str()`, `repr()` and
  `int()` the client relies on.

A Python exception that escapes an operation is a `Raise(name)` result. An
exception the source catches is modelled as the fallback value the source
then uses. `json.loads` is not modelled. Callers pass the decoded value as an
`Option<Json>`, or pass the decoder as a function; `None` stands for a decode
error.

## Model

| member | source | states |
|---|---|---|
| JsonValue.SetKey | htb_mcp_client.py:1473-1476 | after `d[k] = v`, looking up `k` gives `v` and every other key looks up as before |
| JsonValue.SetKeyKeys | htb_mcp_client.py:1473-1476 | assigning an existing key keeps the key order; assigning a new key appends it at the end |
| JsonValue.SetKeyDistinct | htb_mcp_client.py:1473-1476 | assignment never creates a duplicate key |
| JsonValue.UpdateGet | htb_mcp_client.py:69 | after `base.update(extra)`, a key of `extra` has `extra`'s value and any other key keeps `base`'s value or stays absent |
| JsonValue.UpdateKeys | htb_mcp_client.py:69 | `update` keeps the base's keys in order and appends the argument's new keys in the argument's order |
| JsonValue.UpdateDistinct | htb_mcp_client.py:69 | `update` of a dict with distinct keys keeps them distinct |
| JsonValue.UpdateIdempotent | htb_mcp_client.py:290 | applying the same `update` twice gives the same dict as applying it once |
| PyText.IntRoundTrip | htb_mcp_client.py:507 | a row key written as `str(idx)` parses back with `int()` to exactly `idx` |
| PyText.NatToStringInjective | htb_mcp_client.py:507 | different positions get different row keys |
| PyText.IntOrZero | htb_mcp_client.py:325-329 | `int(id)` with failure mapped to 0: an integer is kept, a boolean gives 1 or 0, a float is truncated toward zero, a string ParseInt accepts gives the integer it denotes and any other string gives 0, and None, lists and dicts give 0 |
| Template.Generate | htb_mcp_client.py:301-363 | a schema without `properties` always gives `{}`, and a generated template holds exactly the declared property names in schema order |
| Template.Placeholder | htb_mcp_client.py:314-359 | a property's value never raises when each selection is nothing or a dict, and an `integer` property with no pinned argument and no `default` gets an integer |
| Template.TemplateShape | htb_mcp_client.py:303-361 | no schema or no `properties` always gives `{}`; otherwise a template holds exactly the declared property names, in schema order, one value each, and each value is the one the rule chain picks for that property |
| Template.RequiredIgnored | htb_mcp_client.py:308 | the schema's `required` list has no effect on the template |
| Template.Precedence | htb_mcp_client.py:319-359 | the first matching rule wins: pinned argument, then event id for `ctf_id`/`id`/`event_id`, then challenge id for `challenge_id`/`id`, then `default`, then the type placeholder |
| Template.IdPrefersEvent | htb_mcp_client.py:323-331 | a property named `id` takes the selected event's id whenever that event has one, whatever challenge is selected |
| Template.EventAndChallengeAgree | htb_mcp_client.py:323-342 | the event rule and the challenge rule coerce an id identically |
| Template.IntegerIdCoercion | htb_mcp_client.py:325-331 | an `integer` property gets `int(id)`: the integer any id text ParseInt accepts denotes (`"42"`, `"+42"`, `"007"`), 0 for any other text, 1 or 0 for a boolean; a property of any other declared type gets `str(id)` for every id |
| Template.TypePlaceholderTable | htb_mcp_client.py:316-357 | a missing `type` counts as `string`; the six JSON Schema type names give `"<string>"`, `0`, `0.0`, `false`, `[]`, `{}` |
| Template.TypePlaceholderFallback | htb_mcp_client.py:358-359 | any other declared type, including a non-string `type`, gives `"<value>"` |
| Template.PlaceholderMatchesType | htb_mcp_client.py:325-349 | with no pinned argument and no `default`, an `integer` property gets an integer and a `string` property a string, whichever rule fired |
| Template.TemplateRaisesOnMalformedProperty | htb_mcp_client.py:314-316 | a property description that is not a dict makes generation raise |
| Template.TemplateSucceeds | htb_mcp_client.py:311-345 | with dict property descriptions and selections that are nothing or a dict, generation never raises |
| Template.SinglePropertyTemplate | htb_mcp_client.py:314-361 | a one-property schema yields exactly that property with its chosen value |
| Template.CtfIdFromDigits | htb_mcp_client.py:323-327 | an integer `ctf_id` filled from event id `"42"` is `42` |
| Template.CtfIdFromText | htb_mcp_client.py:325-329 | an integer `ctf_id` filled from event id `"abc"` is `0` |
| Extract.ViewFor | htb_mcp_client.py:385-402 | `list_ctf_events` opens the event list, `retrieve_ctf` the challenge list, `retrieve_my_teams` the team list, and only those names do |
| Extract.FullText | htb_mcp_client.py:473-479 | a result without a list `content` gives the empty text, and so does one whose blocks carry no text |
| Extract.BlocksTextAppend | htb_mcp_client.py:474-479 | the extracted text is the in-order concatenation of each block's contribution |
| Extract.OtherBlockIgnored | htb_mcp_client.py:474-479 | a block that is neither a text block nor a string contributes nothing |
| Extract.TwoTextBlocksExample | htb_mcp_client.py:473-479 | text blocks "a" and "b" around another block give "ab" |
| Extract.TableRowsFaithful | htb_mcp_client.py:498-507 | the table has a row for each dict entry and only those, in list order, each keyed by its original position; the key parses back to the position |
| Extract.NoDictNoRows | htb_mcp_client.py:804-809 | a list without dict entries gives an empty table |
| Extract.DecodeFailureEmpty | htb_mcp_client.py:481-489 | text that does not decode leaves every table empty |
| Extract.SingleDictPayload | htb_mcp_client.py:791-793 | a decoded dict is one row, keyed `"0"`, on the team and event screens; the challenge screen shows nothing for a dict without `challenges` |
| Extract.ListPayload | htb_mcp_client.py:484-487 | a decoded list is used as it is on every screen |
| Extract.ChallengesFieldShapes | htb_mcp_client.py:484-498 | a `challenges` value that is a list gives exactly the rows a decoded list would; one that is null, a boolean or a number makes the table loop raise; a dict or a string gives an empty table |
| Extract.ChallengeScalarPayload | htb_mcp_client.py:481-489 | a decoded value that is neither a dict nor a list leaves the challenge table empty |
| Extract.MissingContent | htb_mcp_client.py:473-474 | a result without a list `content` reads as the empty text, so every screen shows the same as for a result with no blocks |
| Extract.ScreenRows | htb_mcp_client.py:481-507 | the team and event tables (built the same way at 790-809 and 953-972) are built without raising; the challenge table raises only `enumerate`'s TypeError; every row is keyed by `str()` of its position |
| Extract.Cells | htb_mcp_client.py:499-507 | a row has one value per declared column; the id goes through `str()`, while a name the entity has is passed as it is and a missing one shows `Unknown` |
| Markdown.Indent | htb_mcp_client.py:1089 | the indentation of level `n` is `2n` spaces |
| Markdown.Render | htb_mcp_client.py:1087-1118 | the renderer emits at least one line, and its first line is an entry at exactly the call's level: `2n` spaces and then a non-space |
| Markdown.RenderIndented | htb_mcp_client.py:1087-1118 | every line the renderer emits at level `n` starts with `2n` spaces |
| Markdown.RenderShift | htb_mcp_client.py:1087-1118 | rendering at level `n` is rendering at level 0 with `2n` spaces before every line |
| Markdown.RenderEntries | htb_mcp_client.py:1095-1115 | a non-empty dict or list gives exactly one entry line per key or item at its own level, in order; everything nested sits deeper |
| Markdown.RenderShape | htb_mcp_client.py:1091-1118 | an empty dict is the single line `_empty object_`, an empty list `_empty list_`, a scalar one backticked line; output is never empty |
| Markdown.NullRendering | htb_mcp_client.py:1099-1114 | a `null` dict value prints as `null` but a `null` list item prints as `None` |
| Markdown.MarkdownNeverEmpty | htb_mcp_client.py:1087-1118 | the Markdown text is non-empty and ends with the line terminator |
| Markdown.AdditionalDetailsExact | htb_mcp_client.py:539-542 | "Additional Details" lists exactly the pairs whose keys are not well-known, in key order, each key at most once |
| Markdown.ChallengeDetails | htb_mcp_client.py:516-542 | the challenge panel always ends with the Additional Details section |
| Markdown.ChallengeDetailsEndsWithExtras | htb_mcp_client.py:539-542 | changing the value of a well-known key leaves the Additional Details lines unchanged |
| Markdown.EventsMarkdown | htb_mcp_client.py:1035-1046 | the saved event list is the heading followed by one section per dict entry, in list order |
| Markdown.EventsMarkdownSections | htb_mcp_client.py:1035-1046 | a section is saved for exactly the dict entries of the list, and a list without dicts saves the heading alone |
| AppState.LoadState | htb_mcp_client.py:55-72 | whatever the state file holds, the loaded state keeps every default key |
| AppState.LoadStateGet | htb_mcp_client.py:55-72 | a loaded key overwrites its default and a key the file lacks keeps its default |
| AppState.ReloadSaved | htb_mcp_client.py:55-72 | loading any decoded dict with distinct keys gives the app exactly the selection that dict holds, because every selection default is None |
| AppState.LoadStateKeys | htb_mcp_client.py:64-72 | loading keeps the default keys first and appends the file's new keys; a failed load leaves the defaults |
| AppState.SaveAppState | htb_mcp_client.py:1471-1477 | after saving, the four selection entries read back as the app's values, and every other entry, `challenges_cache` included, keeps its value |
| AppState.SaveKeepsKeyOrder | htb_mcp_client.py:1473-1476 | saving a state that already holds the four entries keeps its key order |
| AppState.SaveKeepsDistinct | htb_mcp_client.py:1473-1476 | saving never introduces a duplicate key |
| AppState.RestartRestoresSelection | htb_mcp_client.py:1457-1476 | a saved state, loaded again, gives back the same selection and keeps the challenge cache |
| AppState.CanPlay | htb_mcp_client.py:1534 | Play is enabled only when event, team and challenge are all set |
| AppState.PlayButton | htb_mcp_client.py:1513-1535 | the display update enables Play exactly when all three selections are non-empty dicts and the container status is nothing or a dict; a set selection or a set container status that is not a dict raises AttributeError instead (1515-1517, 1525) |
| AppState.FreshStartCannotPlay | htb_mcp_client.py:1534-1535 | with nothing selected, Play is disabled |
| AppState.FreshStartPlayButton | htb_mcp_client.py:1510-1535 | on a fresh start the display update raises nothing and leaves Play disabled |
| AppState.PlayGate | htb_mcp_client.py:1513-1535 | the Play rule (1534) needs event, team and challenge all set, and the container status does not enter it; with event and team dicts selected and a container status that is nothing or a dict, choosing a non-empty challenge dict enables Play, while choosing a set entry that is not a dict makes the display update raise |
| AppState.Choose | htb_mcp_client.py:555-563 | a Select button stores the entry under the cursor in its own slot when the cursor is within the data, and otherwise changes nothing |
| AppState.MergeAutoExec | htb_mcp_client.py:284-293 | the editor's text changes exactly when there are arguments and it decodes to a dict, and the merged dict keeps every key the editor had |
| AppState.MergeAutoExecSemantics | htb_mcp_client.py:286-291 | the editor's dict is updated with the arguments: its keys stay in order, new argument keys are appended, argument values win; no arguments, undecodable text or a non-dict leaves the editor unchanged |
| AppState.MergeIntoTemplate | htb_mcp_client.py:286-320 | merging the arguments into the generated template changes no template value and only appends the undeclared arguments |
| AppState.ArtifactNamesDistinct | htb_mcp_client.py:574-575 | saves with different timestamps get different file names, each ending in its extension |

## Left out

- The Textual user interface is not modelled: screens, CSS, bindings, widgets, focus and notifications. The MCP session and its network calls are left out too, and so are the startup code (`argparse`, environment and token).
- File I/O and the clock are left out:
  - `save_state` and `save_to_file` are not modelled.
  - A load is given the decoded file.
  - An artifact name is given its timestamp text.
- `json.loads`, `json.dumps` and `model_dump` are not modelled. Decoded values are inputs, and the template is a JSON value rather than indented text.
- PyText.Show: `str()` of floats is approximated as a decimal expansion cut at 17 digits. `repr()` of strings always uses single quotes without escaping.
- PyText.ParseInt: accepts only an optional sign and ASCII digits. Python's `int()` also accepts surrounding whitespace, `_` separators and non-ASCII digits.
- PyText.IntOrZero, Template.IntegerIdCoercion: follow ParseInt, so an id such as `" 42"` or `"4_2"` gets 0 here where Python's `int()` gives 42.
- AppState.LoadState: for a state file that is a list of pairs, a pair whose key is a non-string scalar stops the update. Python would insert that key, but this model's dict keys are strings.
- These are not modelled:
  - The detail panel for the first entry, which the challenge screen shows right after building its table. When that entry cannot be shown the screen raises after the table is built. A non-empty dict `challenges` value raises KeyError at `[0]`. A non-empty string, or a list whose first entry is not a dict, raises AttributeError in `.get`.
  - The highlight handler that reads a row key back.
  - The team and event detail panels. Each screen shows its first entry right after building its table, and `display_team_details` or `display_event_details` raises AttributeError when that entry is not a dict, for instance when the decoded text is a number or `null`. Extract.ScreenRows gives the table as built before that raise.
- A Select button that stores an entry which is not a dict saves it first and then raises AttributeError in its notification, so the main menu is not updated. PlayButton models what any later display update of such a selection does.
- A Select button indexes the screen's data with the table's cursor row. Once a non-dict entry has been skipped, that row can differ from the entity's position. Choose models the indexing as written and does not relate it to the rows.
- The container-status parse after `start_container` is only a comment in the source, so nothing sets `container_status` except a loaded file. A loaded file can hold any value there, and PlayButton models the raise a set value that is not a dict causes.
- The Markdown line terminator is the named constant `NL`, kept exactly as the source text spells it (`\\n`). No proof depends on its value.
- The result screen passes the raw tool result object to the renderer, not decoded JSON. The model renders any JSON value; for an object that is not a dict or list the renderer prints one backticked line.

=== FILE: extract.dfy ===
/** From a tool result to the rows of the event, team and challenge tables
    (htb_mcp_client.py, `process_challenges`, `process_teams`,
    `process_events`), and the choice of screen a tool's result opens
    (`run_tool`).

    Decoding the concatenated text with `json.loads` is not modelled: callers
    pass the decoder as a function whose `None` stands for a JSONDecodeError.
 */
module Extract {
  import opened JsonValue
  import opened PyText

  /** One entry of a result's `content` list: a block whose `type` is
      "text", a bare string, or anything else (images, resources, ...). */
  datatype Block = TextBlock(text: string) | StringBlock(s: string) | OtherBlock(kind: string)

  /** A tool or resource result; `content` is `None` when the attribute is
      missing or is not a list. */
  datatype ToolResult = ToolResult(content: Option<seq<Block>>)

  /** The text of the blocks that carry text, in order; blocks that carry no
      text give the empty text. */
  function BlocksText(blocks: seq<Block>): (s: string)
    ensures (forall i :: 0 <= i < |blocks| ==> blocks[i].OtherBlock?) ==> s == ""
  {
    if |blocks| == 0 then ""
    else
      var head := match blocks[0]
        case TextBlock(t) => t
        case StringBlock(s) => s
        case OtherBlock(_) => "";
      head + BlocksText(blocks[1..])
  }

  /** `full_text` as the three list screens build it: a result without a
      list `content` gives the empty text, and so does one whose blocks carry
      no text. */
  function FullText(r: ToolResult): (s: string)
    ensures r.content.None? ==> s == ""
    ensures r.content.Some? && (forall i :: 0 <= i < |r.content.value| ==> r.content.value[i].OtherBlock?) ==> s == ""
  {
    match r.content
    case None => ""
    case Some(blocks) => BlocksText(blocks)
  }

  /** Extraction distributes over concatenation of block lists: the text is
      the in-order concatenation of every block's contribution. */
  lemma {:induction false} BlocksTextAppend(a: seq<Block>, b: seq<Block>)
    ensures BlocksText(a + b) == BlocksText(a) + BlocksText(b)
  {
    if |a| == 0 {
      assert a + b == b;
    } else {
      assert (a + b)[0] == a[0];
      assert (a + b)[1..] == a[1..] + b;
      BlocksTextAppend(a[1..], b);
    }
  }

  /** Dropping a non-text block does not change the text. */
  lemma OtherBlockIgnored(blocks: seq<Block>, i: nat)
    requires i < |blocks| && blocks[i].OtherBlock?
    ensures BlocksText(blocks[..i] + blocks[i + 1..]) == BlocksText(blocks)
  {
    assert blocks == blocks[..i] + ([blocks[i]] + blocks[i + 1..]);
    BlocksTextAppend(blocks[..i], [blocks[i]] + blocks[i + 1..]);
    BlocksTextAppend(blocks[..i], blocks[i + 1..]);
    assert BlocksText([blocks[i]] + blocks[i + 1..]) == BlocksText(blocks[i + 1..]) by {
      assert ([blocks[i]] + blocks[i + 1..])[1..] == blocks[i + 1..];
    }
  }

  /** Text blocks "a" and "b" around an image block give "ab". */
  lemma TwoTextBlocksExample(kind: string)
    ensures FullText(ToolResult(Some([TextBlock("a"), OtherBlock(kind), TextBlock("b")]))) == "ab"
  {
    var bs := [TextBlock("a"), OtherBlock(kind), TextBlock("b")];
    assert BlocksText(bs[2..]) == "b" by { assert bs[2..][1..] == []; }
    assert BlocksText(bs[1..]) == "b" by { assert bs[1..][1..] == bs[2..]; }
  }

  /** The screen a tool's result opens. */
  datatype View = EventSelection | ChallengeSelection | TeamSelection | ResultView

  function ViewFor(toolName: string): (v: View)
    ensures v == EventSelection <==> toolName == "list_ctf_events"
    ensures v == ChallengeSelection <==> toolName == "retrieve_ctf"
    ensures v == TeamSelection <==> toolName == "retrieve_my_teams"
  {
    if toolName == "list_ctf_events" then EventSelection
    else if toolName == "retrieve_ctf" then ChallengeSelection
    else if toolName == "retrieve_my_teams" then TeamSelection
    else ResultView
  }

  /** The three list screens. */
  datatype ListKind = Challenges | Teams | Events

  /** `challenges_data` after decoding: the decoded dict's `challenges` value,
      the decoded list itself, or the initial empty list. */
  function ChallengeData(decoded: Option<Json>): Json {
    match decoded
    case Some(Obj(fields)) => GetOr(fields, "challenges", Arr([]))
    case Some(Arr(items)) => Arr(items)
    case _ => Arr([])
  }

  /** `teams_data` / `events_data` after decoding: a decoded list, any other
      decoded value wrapped as a one-element list, or the initial empty list. */
  function WrapAsList(decoded: Option<Json>): seq<Json> {
    match decoded
    case None => []
    case Some(Arr(items)) => items
    case Some(other) => [other]
  }

  /** What `enumerate(data)` walks: a list's items, a dict's keys, a string's
      characters; other values raise TypeError. */
  function Iterate(data: Json): Result<seq<Json>> {
    match data
    case Arr(items) => Ok(items)
    case Obj(fields) => Ok(seq(|fields|, i requires 0 <= i < |fields| => Str(fields[i].0)))
    case Str(s) => Ok(seq(|s|, i requires 0 <= i < |s| => Str([s[i]])))
    case _ => Raise("TypeError")
  }

  /** One table row: the entity's position in the list, the row key
      `str(idx)`, and the entity dict whose `Cells` the row shows. */
  datatype Row = Row(index: nat, key: string, entity: Fields)

  /** The column headers each screen's table declares. */
  function Columns(kind: ListKind): seq<string> {
    match kind
    case Challenges => ["ID", "Name", "Category", "Diff", "Pts", "Solved"]
    case Teams => ["ID", "Name", "Captain"]
    case Events => ["ID", "Name", "Status"]
  }

  /** The values a row passes to `add_row` for an entity dict: the id, the
      category, the points and the captain go through `str()`, while the name,
      the difficulty and the event status are passed as they are. There is
      one cell per declared column, and a name the entity has is shown as it
      is. */
  function Cells(kind: ListKind, fields: Fields): (cells: seq<Json>)
    ensures |cells| == |Columns(kind)|
    ensures cells[0] == Str(Show(GetOr(fields, "id", Str(""))))
    ensures HasKey(fields, "name") ==> Some(cells[1]) == Get(fields, "name")
    ensures !HasKey(fields, "name") ==> cells[1] == Str("Unknown")
    ensures kind == Challenges ==> cells[5] == Str(if Truthy(GetOr(fields, "solved", Null)) then "Yes" else "No")
  {
    var id := Str(Show(GetOr(fields, "id", Str(""))));
    var name := GetOr(fields, "name", Str("Unknown"));
    match kind
    case Challenges =>
      [ id, name, Str(Show(GetOr(fields, "challenge_category_id", Str("")))),
        GetOr(fields, "difficulty", Str("")), Str(Show(GetOr(fields, "points", Str("")))),
        Str(if Truthy(GetOr(fields, "solved", Null)) then "Yes" else "No") ]
    case Teams => [ id, name, Str(Show(GetOr(fields, "captain_id", Str("Unknown")))) ]
    case Events => [ id, name, GetOr(fields, "status", Str("Unknown")) ]
  }

  /** The rows for `entities`, whose first element sits at position `start`
      of the enumerated list; entries that are not dicts get no row. */
  function RowsFrom(entities: seq<Json>, start: nat): seq<Row> {
    if |entities| == 0 then []
    else
      (match entities[0]
       case Obj(fields) => [Row(start, IntToString(start), fields)]
       case _ => [])
      + RowsFrom(entities[1..], start + 1)
  }

  function TableRows(entities: seq<Json>): (rows: seq<Row>)
    ensures forall j :: 0 <= j < |rows| ==> rows[j].key == IntToString(rows[j].index)
  {
    RowsFromSound(entities, 0);
    RowsFrom(entities, 0)
  }

  /** Every row shows a dict entry of the list, under the key `str(idx)` of
      its position. */
  predicate RowsSound(entities: seq<Json>, start: nat, rows: seq<Row>) {
    forall j :: 0 <= j < |rows| ==>
      && start <= rows[j].index < start + |entities|
      && entities[rows[j].index - start].Obj?
      && rows[j].entity == entities[rows[j].index - start].fields
      && rows[j].key == IntToString(rows[j].index)
  }

  /** Rows keep the order of the list. */
  predicate RowsOrdered(rows: seq<Row>) {
    forall j, j' :: 0 <= j < j' < |rows| ==> rows[j].index < rows[j'].index
  }

  /** Every dict entry of the list has a row. */
  predicate RowsComplete(entities: seq<Json>, start: nat, rows: seq<Row>) {
    forall i :: 0 <= i < |entities| && entities[i].Obj? ==>
      exists j :: 0 <= j < |rows| && rows[j].index == start + i
  }

  lemma RowsFromUnfold(entities: seq<Json>, start: nat)
    requires |entities| > 0
    ensures RowsFrom(entities, start)
            == HeadRow(entities[0], start) + RowsFrom(entities[1..], start + 1)
  {
  }

  /** The row, if any, that the first entity of a list at position `start` gets. */
  function HeadRow(first: Json, start: nat): seq<Row> {
    if first.Obj? then [Row(start, IntToString(start), first.fields)] else []
  }

  lemma {:induction false} RowsFromSound(entities: seq<Json>, start: nat)
    ensures RowsSound(entities, start, RowsFrom(entities, start))
  {
    if |entities| > 0 {
      RowsFromSound(entities[1..], start + 1);
      RowsFromUnfold(entities, start);
      SoundStep(entities, start, HeadRow(entities[0], start), RowsFrom(entities[1..], start + 1));
    }
  }

  lemma SoundStep(entities: seq<Json>, start: nat, head: seq<Row>, tail: seq<Row>)
    requires |entities| > 0 && head == HeadRow(entities[0], start)
    requires RowsSound(entities[1..], start + 1, tail)
    ensures RowsSound(entities, start, head + tail)
  {
    var rest := entities[1..];
    var rows := head + tail;
    forall j | 0 <= j < |rows|
      ensures && start <= rows[j].index < start + |entities|
              && entities[rows[j].index - start].Obj?
              && rows[j].entity == entities[rows[j].index - start].fields
              && rows[j].key == IntToString(rows[j].index)
    {
      if j >= |head| {
        assert rows[j] == tail[j - |head|];
        assert entities[rows[j].index - start] == rest[rows[j].index - (start + 1)];
      }
    }
  }

  lemma {:induction false} RowsFromOrdered(entities: seq<Json>, start: nat)
    ensures RowsOrdered(RowsFrom(entities, start))
    ensures forall j :: 0 <= j < |RowsFrom(entities, start)| ==> RowsFrom(entities, start)[j].index >= start
  {
    if |entities| > 0 {
      RowsFromOrdered(entities[1..], start + 1);
      RowsFromUnfold(entities, start);
      OrderedStep(HeadRow(entities[0], start), RowsFrom(entities[1..], start + 1), start);
    }
  }

  lemma OrderedStep(head: seq<Row>, tail: seq<Row>, start: nat)
    requires |head| <= 1 && forall j :: 0 <= j < |head| ==> head[j].index == start
    requires RowsOrdered(tail) && forall j :: 0 <= j < |tail| ==> tail[j].index >= start + 1
    ensures RowsOrdered(head + tail)
    ensures forall j :: 0 <= j < |head + tail| ==> (head + tail)[j].index >= start
  {
    var rows := head + tail;
    forall j | 0 <= j < |rows| ensures rows[j].index >= start {
      if j >= |head| { assert rows[j] == tail[j - |head|]; }
    }
    forall j, j' | 0 <= j < j' < |rows| ensures rows[j].index < rows[j'].index {
      assert rows[j'] == tail[j' - |head|];
      if j >= |head| { assert rows[j] == tail[j - |head|]; }
    }
  }

  lemma {:induction false} RowsFromComplete(entities: seq<Json>, start: nat)
    ensures RowsComplete(entities, start, RowsFrom(entities, start))
  {
    if |entities| > 0 {
      var rest := entities[1..];
      RowsFromComplete(rest, start + 1);
      RowsFromUnfold(entities, start);
      var tail := RowsFrom(rest, start + 1);
      var rows := RowsFrom(entities, start);
      var h := if entities[0].Obj? then 1 else 0;
      forall i | 0 <= i < |entities| && entities[i].Obj?
        ensures exists j :: 0 <= j < |rows| && rows[j].index == start + i
      {
        if i == 0 {
          assert rows[0].index == start;
        } else {
          assert rest[i - 1] == entities[i];
          var j :| 0 <= j < |tail| && tail[j].index == start + 1 + (i - 1);
          assert rows[h + j] == tail[j];
        }
      }
    }
  }

  /** A list without dict entries gives no rows. */
  lemma {:induction false} NoDictNoRows(entities: seq<Json>, start: nat)
    requires forall i :: 0 <= i < |entities| ==> !entities[i].Obj?
    ensures RowsFrom(entities, start) == []
  {
    if |entities| > 0 {
      NoDictNoRows(entities[1..], start + 1);
    }
  }

  /** The table lists exactly the dict entries of the enumerated list, in
      order, each under the key `str(idx)` of its original position, and
      that key parses back to the position. */
  lemma TableRowsFaithful(entities: seq<Json>)
    ensures RowsSound(entities, 0, TableRows(entities))
    ensures RowsOrdered(TableRows(entities))
    ensures RowsComplete(entities, 0, TableRows(entities))
    ensures forall j :: 0 <= j < |TableRows(entities)| ==>
              ParseInt(TableRows(entities)[j].key) == Some(TableRows(entities)[j].index)
  {
    RowsFromSound(entities, 0);
    RowsFromOrdered(entities, 0);
    RowsFromComplete(entities, 0);
    var rows := TableRows(entities);
    forall j | 0 <= j < |rows| ensures ParseInt(rows[j].key) == Some(rows[j].index) {
      IntRoundTrip(rows[j].index);
    }
  }

  /** The rows a list screen shows for a tool result, given the decoder. The
      team and event screens always enumerate a list and never raise; the
      challenge screen raises only the TypeError of `enumerate`; every row is
      keyed by `str()` of its position. */
  function ScreenRows(kind: ListKind, r: ToolResult, decode: string -> Option<Json>): (rows: Result<seq<Row>>)
    ensures kind != Challenges ==> rows.Ok?
    ensures rows.Raise? ==> rows.error == "TypeError"
    ensures rows.Ok? ==> forall j :: 0 <= j < |rows.value| ==> rows.value[j].key == IntToString(rows.value[j].index)
  {
    var decoded := decode(FullText(r));
    match kind
    case Challenges =>
      (match Iterate(ChallengeData(decoded))
       case Ok(entities) => Ok(TableRows(entities))
       case Raise(e) => Raise(e))
    case _ => Ok(TableRows(WrapAsList(decoded)))
  }

  /** Text that does not decode leaves every table empty. */
  lemma DecodeFailureEmpty(kind: ListKind, r: ToolResult, decode: string -> Option<Json>)
    requires decode(FullText(r)).None?
    ensures ScreenRows(kind, r, decode) == Ok([])
  {
  }

  /** A decoded single dict is one entity for the team and event screens, but
      the challenge screen shows it only through its `challenges` field. */
  lemma SingleDictPayload(kind: ListKind, r: ToolResult, decode: string -> Option<Json>, fields: Fields)
    requires decode(FullText(r)) == Some(Obj(fields))
    ensures kind != Challenges ==> ScreenRows(kind, r, decode) == Ok([Row(0, "0", fields)])
    ensures kind == Challenges && !HasKey(fields, "challenges") ==> ScreenRows(kind, r, decode) == Ok([])
  {
    if kind != Challenges {
      assert WrapAsList(Some(Obj(fields))) == [Obj(fields)];
      OneDictOneRow(fields);
    } else if !HasKey(fields, "challenges") {
      assert ChallengeData(Some(Obj(fields))) == Arr([]);
    }
  }

  lemma OneDictOneRow(fields: Fields)
    ensures TableRows([Obj(fields)]) == [Row(0, "0", fields)]
  {
    assert IntToString(0) == "0";
    RowsFromUnfold([Obj(fields)], 0);
    assert [Obj(fields)][1..] == [];
  }

  /** A decoded list is used as it is: its dict entries become the rows, for
      every screen. */
  lemma ListPayload(kind: ListKind, r: ToolResult, decode: string -> Option<Json>, items: seq<Json>)
    requires decode(FullText(r)) == Some(Arr(items))
    ensures ScreenRows(kind, r, decode) == Ok(TableRows(items))
  {
  }

  /** A `challenges` field that is a list gives the table its rows, exactly
      as a decoded list would; one that is null, a boolean or a number makes
      `enumerate` raise; one that is a dict or a string gives an empty table. */
  lemma ChallengesFieldShapes(r: ToolResult, decode: string -> Option<Json>, fields: Fields)
    requires decode(FullText(r)) == Some(Obj(fields)) && HasKey(fields, "challenges")
    ensures GetOr(fields, "challenges", Null).Arr? ==>
              ScreenRows(Challenges, r, decode) == Ok(TableRows(GetOr(fields, "challenges", Null).items))
    ensures GetOr(fields, "challenges", Null) in {Null, Bool(true), Bool(false)} || GetOr(fields, "challenges", Null).Int?
              || GetOr(fields, "challenges", Null).Num?
            ==> ScreenRows(Challenges, r, decode).Raise?
    ensures GetOr(fields, "challenges", Null).Obj? || GetOr(fields, "challenges", Null).Str?
            ==> ScreenRows(Challenges, r, decode) == Ok([])
  {
    var data := GetOr(fields, "challenges", Null);
    assert ChallengeData(Some(Obj(fields))) == data;
    if data.Obj? || data.Str? {
      var es := Iterate(data).value;
      assert forall i :: 0 <= i < |es| ==> es[i].Str?;
      NoDictNoRows(es, 0);
    }
  }

  /** A decoded value that is neither a dict nor a list leaves
      `challenges_data` at its initial empty list, so the challenge table is
      empty. */
  lemma ChallengeScalarPayload(r: ToolResult, decode: string -> Option<Json>)
    requires decode(FullText(r)).Some? && !decode(FullText(r)).value.Obj? && !decode(FullText(r)).value.Arr?
    ensures ScreenRows(Challenges, r, decode) == Ok([])
  {
    assert ChallengeData(decode(FullText(r))) == Arr([]);
    assert RowsFrom([], 0) == [];
  }

  /** A result without a list `content` reads as the empty text, so every
      screen shows what the decoder makes of `""`, exactly as for a result
      with no blocks. */
  lemma MissingContent(kind: ListKind, decode: string -> Option<Json>)
    ensures FullText(ToolResult(None)) == ""
    ensures ScreenRows(kind, ToolResult(None), decode) == ScreenRows(kind, ToolResult(Some([])), decode)
  {
    assert FullText(ToolResult(Some([]))) == "";
  }
}

=== FILE: json.dfy ===
/** JSON values as the client holds them after decoding, and the Python dict
    operations the client applies to them.

    A Python dict keeps insertion order, so an object is an ordered sequence of
    key/value pairs. A dict built by the JSON decoder has distinct keys
    (`DistinctKeys`); lookups return the first pair with the key, assignment
    replaces that pair in place or appends a new one, and `update` assigns the
    pairs of its argument in order.
 */
module JsonValue {

  datatype Option<+T> = None | Some(value: T)

  /** Outcome of a computation that can raise in the source: `Raise` carries
      the name of the Python exception that escapes. */
  datatype Result<+T> = Ok(value: T) | Raise(error: string)

  datatype Json =
    | Null
    | Bool(b: bool)
    | Int(i: int)
    | Num(r: real)
    | Str(s: string)
    | Arr(items: seq<Json>)
    | Obj(fields: seq<(string, Json)>)

  type Fields = seq<(string, Json)>

  /** Python truthiness: None, False, 0, 0.0, "" and empty containers are false. */
  predicate Truthy(j: Json) {
    match j
    case Null => false
    case Bool(b) => b
    case Int(i) => i != 0
    case Num(r) => r != 0.0
    case Str(s) => |s| > 0
    case Arr(items) => |items| > 0
    case Obj(fields) => |fields| > 0
  }

  function Keys(fields: Fields): (ks: seq<string>)
    ensures |ks| == |fields|
    ensures forall i :: 0 <= i < |fields| ==> ks[i] == fields[i].0
  {
    if |fields| == 0 then [] else [fields[0].0] + Keys(fields[1..])
  }

  predicate HasKey(fields: Fields, k: string) {
    k in Keys(fields)
  }

  predicate DistinctKeys(fields: Fields) {
    forall i, j :: 0 <= i < j < |fields| ==> fields[i].0 != fields[j].0
  }

  /** `d.get(k)`: the value of the first pair whose key is `k`. */
  function Get(fields: Fields, k: string): (r: Option<Json>)
    ensures r.Some? <==> HasKey(fields, k)
    ensures r.Some? ==> exists i :: 0 <= i < |fields| && fields[i] == (k, r.value)
  {
    if |fields| == 0 then None
    else if fields[0].0 == k then Some(fields[0].1)
    else Get(fields[1..], k)
  }

  /** `d.get(k, default)`. */
  function GetOr(fields: Fields, k: string, default: Json): Json {
    match Get(fields, k)
    case Some(v) => v
    case None => default
  }

  /** `d[k] = v`: replaces the first pair with key `k`, or appends `(k, v)`. */
  function SetKey(fields: Fields, k: string, v: Json): (r: Fields)
    ensures Get(r, k) == Some(v)
    ensures forall k' :: k' != k ==> Get(r, k') == Get(fields, k')
  {
    if |fields| == 0 then [(k, v)]
    else if fields[0].0 == k then [(k, v)] + fields[1..]
    else [fields[0]] + SetKey(fields[1..], k, v)
  }

  /** Assignment keeps the key order, appending a key that was absent. */
  lemma {:induction false} SetKeyKeys(fields: Fields, k: string, v: Json)
    ensures HasKey(fields, k) ==> Keys(SetKey(fields, k, v)) == Keys(fields)
    ensures !HasKey(fields, k) ==> Keys(SetKey(fields, k, v)) == Keys(fields) + [k]
  {
    if |fields| > 0 && fields[0].0 != k {
      SetKeyKeys(fields[1..], k, v);
      assert Keys(fields) == [fields[0].0] + Keys(fields[1..]);
    }
  }

  /** Assignment never creates a duplicate key. */
  lemma SetKeyDistinct(fields: Fields, k: string, v: Json)
    requires DistinctKeys(fields)
    ensures DistinctKeys(SetKey(fields, k, v))
  {
    var r := SetKey(fields, k, v);
    SetKeyKeys(fields, k, v);
    forall i, j | 0 <= i < j < |r| ensures r[i].0 != r[j].0 {
      assert Keys(r)[i] == r[i].0 && Keys(r)[j] == r[j].0;
      if j < |fields| {
        assert Keys(fields)[i] == fields[i].0 && Keys(fields)[j] == fields[j].0;
      } else {
        assert !HasKey(fields, k) && r[j].0 == k;
        assert Keys(fields)[i] == fields[i].0;
      }
    }
  }

  /** The tail of a dict with distinct keys has distinct keys and lacks the head key. */
  lemma TailDistinct(fields: Fields)
    requires DistinctKeys(fields)
    requires |fields| > 0
    ensures DistinctKeys(fields[1..])
    ensures !HasKey(fields[1..], fields[0].0)
    ensures Keys(fields) == [fields[0].0] + Keys(fields[1..])
  {
    var rest := fields[1..];
    forall i, j | 0 <= i < j < |rest| ensures rest[i].0 != rest[j].0 {
      assert rest[i] == fields[i + 1] && rest[j] == fields[j + 1];
    }
    forall j | 0 <= j < |rest| ensures Keys(rest)[j] != fields[0].0 {
      assert rest[j] == fields[j + 1];
    }
  }

  /** `base.update(extra)`: assigns the pairs of `extra` in order. */
  function Update(base: Fields, extra: Fields): Fields
    decreases |extra|
  {
    if |extra| == 0 then base
    else Update(SetKey(base, extra[0].0, extra[0].1), extra[1..])
  }

  /** The keys of `ks` that are not in `seen`, in their order in `ks`. */
  function NewKeys(ks: seq<string>, seen: seq<string>): seq<string>
  {
    if |ks| == 0 then []
    else if ks[0] in seen then NewKeys(ks[1..], seen)
    else [ks[0]] + NewKeys(ks[1..], seen)
  }

  /** The value `update` leaves under a key: the argument's wins, and a key the
      argument lacks keeps the base's value (or stays absent). */
  lemma {:induction false} UpdateGet(base: Fields, extra: Fields, k: string)
    requires DistinctKeys(extra)
    ensures Get(Update(base, extra), k) ==
            (if HasKey(extra, k) then Get(extra, k) else Get(base, k))
    decreases |extra|
  {
    if |extra| > 0 {
      var rest := extra[1..];
      TailDistinct(extra);
      UpdateGet(SetKey(base, extra[0].0, extra[0].1), rest, k);
    }
  }

  /** `update` keeps the base's keys in their order and appends the keys that
      are new to it, in the argument's order. */
  lemma {:induction false} UpdateKeys(base: Fields, extra: Fields)
    requires DistinctKeys(extra)
    ensures Keys(Update(base, extra)) == Keys(base) + NewKeys(Keys(extra), Keys(base))
    decreases |extra|
  {
    if |extra| > 0 {
      var rest := extra[1..];
      TailDistinct(extra);
      var (k, v) := extra[0];
      var next := SetKey(base, k, v);
      SetKeyKeys(base, k, v);
      UpdateKeys(next, rest);
      UpdateKeysStep(Keys(base), Keys(rest), Keys(next), k, Keys(Update(next, rest)));
    }
  }

  lemma UpdateKeysStep(kb: seq<string>, kr: seq<string>, knext: seq<string>, k: string, u: seq<string>)
    requires knext == if k in kb then kb else kb + [k]
    requires k !in kr
    requires u == knext + NewKeys(kr, knext)
    ensures u == kb + NewKeys([k] + kr, kb)
  {
    NewKeysCons(k, kr, kb);
    if k !in kb {
      NewKeysIgnoresAbsent(kr, kb, k);
      assert kb + [k] + NewKeys(kr, kb) == kb + ([k] + NewKeys(kr, kb));
    }
  }

  lemma NewKeysCons(k: string, ks: seq<string>, seen: seq<string>)
    ensures NewKeys([k] + ks, seen) == if k in seen then NewKeys(ks, seen) else [k] + NewKeys(ks, seen)
  {
    assert ([k] + ks)[1..] == ks;
  }

  lemma {:induction false} NewKeysIgnoresAbsent(ks: seq<string>, seen: seq<string>, k: string)
    requires k !in ks
    ensures NewKeys(ks, seen + [k]) == NewKeys(ks, seen)
  {
    if |ks| > 0 {
      NewKeysIgnoresAbsent(ks[1..], seen, k);
    }
  }

  lemma {:induction false} UpdateDistinct(base: Fields, extra: Fields)
    requires DistinctKeys(base)
    ensures DistinctKeys(Update(base, extra))
    decreases |extra|
  {
    if |extra| > 0 {
      SetKeyDistinct(base, extra[0].0, extra[0].1);
      UpdateDistinct(SetKey(base, extra[0].0, extra[0].1), extra[1..]);
    }
  }

  /** Assigning a key the value it already has changes nothing. */
  lemma {:induction false} SetKeyUnchanged(fields: Fields, k: string, v: Json)
    requires Get(fields, k) == Some(v)
    ensures SetKey(fields, k, v) == fields
  {
    if fields[0].0 != k {
      SetKeyUnchanged(fields[1..], k, v);
    }
  }

  /** Updating with pairs that are all already present changes nothing. */
  lemma {:induction false} UpdateWithPresent(base: Fields, extra: Fields)
    requires forall i :: 0 <= i < |extra| ==> Get(base, extra[i].0) == Some(extra[i].1)
    ensures Update(base, extra) == base
    decreases |extra|
  {
    if |extra| > 0 {
      SetKeyUnchanged(base, extra[0].0, extra[0].1);
      UpdateWithPresent(base, extra[1..]);
    }
  }

  /** Applying the same `update` twice is the same as applying it once. */
  lemma UpdateIdempotent(base: Fields, extra: Fields)
    requires DistinctKeys(extra)
    ensures Update(Update(base, extra), extra) == Update(base, extra)
  {
    var once := Update(base, extra);
    forall i | 0 <= i < |extra| ensures Get(once, extra[i].0) == Some(extra[i].1) {
      UpdateGet(base, extra, extra[i].0);
      assert HasKey(extra, extra[i].0) by { assert Keys(extra)[i] == extra[i].0; }
      FirstMatchIsOnly(extra, i);
    }
    UpdateWithPresent(once, extra);
  }

  /** In a dict with distinct keys, looking up the key of a pair finds that pair. */
  lemma {:induction false} FirstMatchIsOnly(fields: Fields, i: nat)
    requires DistinctKeys(fields)
    requires i < |fields|
    ensures Get(fields, fields[i].0) == Some(fields[i].1)
  {
    if i > 0 {
      TailDistinct(fields);
      assert fields[0].0 != fields[i].0;
      FirstMatchIsOnly(fields[1..], i - 1);
    }
  }
}

=== FILE: markdown.dfy ===
/** Markdown produced for results and entity details (htb_mcp_client.py,
    `ResultScreen._json_to_markdown`, the "Additional Details" section of
    `display_challenge_details`, and the event list written by the event
    screen's `save_md`).

    The renderer is modelled as the sequence of lines it emits; the text is
    each line followed by `NL`.
 */
module Markdown {
  import opened JsonValue
  import opened PyText

  /** The line terminator the Markdown literals end with; the source text
      spells it `\\n`. Nothing proved below depends on its value. */
  const NL: string := "\\n"

  /** `"  " * level`. */
  function Indent(level: nat): (s: string)
    ensures |s| == 2 * level
    ensures forall i :: 0 <= i < |s| ==> s[i] == ' '
  {
    if level == 0 then "" else "  " + Indent(level - 1)
  }

  predicate IsContainer(j: Json) {
    j.Arr? || j.Obj?
  }

  /** A dict entry's own line without its indentation: a container value
      gets a bare `- **k**:` and is rendered below it, `None` prints as
      `null`, anything else is backticked. */
  function FieldText(k: string, v: Json): string {
    if IsContainer(v) then "- **" + k + "**:"
    else if v.Null? then "- **" + k + "**: `null`"
    else "- **" + k + "**: `" + Show(v) + "`"
  }

  /** A list item's own line without its indentation; `None` items are not
      special-cased and print as `None`. */
  function ItemText(item: Json): string {
    if IsContainer(item) then "- " else "- `" + Show(item) + "`"
  }

  /** A scalar at the top of a call, or an empty container's marker. */
  function ScalarText(data: Json): string {
    match data
    case Obj(_) => "_empty object_"
    case Arr(_) => "_empty list_"
    case _ => "`" + Show(data) + "`"
  }

  function FieldLine(k: string, v: Json, level: nat): string {
    Indent(level) + FieldText(k, v)
  }

  function ItemLine(item: Json, level: nat): string {
    Indent(level) + ItemText(item)
  }

  /** The lines of `_json_to_markdown(data, level)`. */
  function Render(data: Json, level: nat): (lines: seq<string>)
    ensures |lines| >= 1
    ensures |lines[0]| > 2 * level && lines[0][..2 * level] == Indent(level) && lines[0][2 * level] != ' '
    decreases data, 1
  {
    match data
    case Obj(fields) =>
      if |fields| == 0 then [Indent(level) + ScalarText(data)] else FieldLines(fields, level)
    case Arr(items) =>
      if |items| == 0 then [Indent(level) + ScalarText(data)] else ItemLines(items, level)
    case _ => [Indent(level) + ScalarText(data)]
  }

  function FieldLines(fields: Fields, level: nat): seq<string>
    decreases fields, 0
  {
    if |fields| == 0 then []
    else
      assert fields[0] in fields;
      assert fields[0].1 < fields[0];
      [FieldLine(fields[0].0, fields[0].1, level)]
      + (if IsContainer(fields[0].1) then Render(fields[0].1, level + 1) else [])
      + FieldLines(fields[1..], level)
  }

  function ItemLines(items: seq<Json>, level: nat): seq<string>
    decreases items, 0
  {
    if |items| == 0 then []
    else
      assert items[0] in items;
      [ItemLine(items[0], level)]
      + (if IsContainer(items[0]) then Render(items[0], level + 1) else [])
      + ItemLines(items[1..], level)
  }

  /** Lines joined into text, each followed by `NL`. */
  function Text(lines: seq<string>): string {
    if |lines| == 0 then "" else lines[0] + NL + Text(lines[1..])
  }

  /** `_json_to_markdown(data, level)` as text. */
  function JsonToMarkdown(data: Json, level: nat): string {
    Text(Render(data, level))
  }

  // ---------------------------------------------------------------------
  // Line shape

  /** `line` starts with the indentation of `level`. */
  predicate Indented(line: string, level: nat) {
    |line| >= 2 * level && forall i :: 0 <= i < 2 * level ==> line[i] == ' '
  }

  lemma {:induction false} RenderIndented(data: Json, level: nat)
    ensures forall line :: line in Render(data, level) ==> Indented(line, level)
    decreases data, 1
  {
    match data
    case Obj(fields) =>
      if |fields| > 0 { FieldLinesIndented(fields, level); }
    case Arr(items) =>
      if |items| > 0 { ItemLinesIndented(items, level); }
    case _ =>
  }

  lemma {:induction false} FieldLinesIndented(fields: Fields, level: nat)
    ensures forall line :: line in FieldLines(fields, level) ==> Indented(line, level)
    decreases fields, 0
  {
    if |fields| > 0 {
      assert fields[0] in fields;
      assert fields[0].1 < fields[0];
      RenderIndented(fields[0].1, level + 1);
      FieldLinesIndented(fields[1..], level);
    }
  }

  lemma {:induction false} ItemLinesIndented(items: seq<Json>, level: nat)
    ensures forall line :: line in ItemLines(items, level) ==> Indented(line, level)
    decreases items, 0
  {
    if |items| > 0 {
      assert items[0] in items;
      RenderIndented(items[0], level + 1);
      ItemLinesIndented(items[1..], level);
    }
  }

  /** Every line of `lines` prefixed with `p`. */
  function Prefix(p: string, lines: seq<string>): seq<string> {
    seq(|lines|, i requires 0 <= i < |lines| => p + lines[i])
  }

  lemma PrefixTwice(p: string, q: string, lines: seq<string>)
    ensures Prefix(p, Prefix(q, lines)) == Prefix(p + q, lines)
  {
    var l, r := Prefix(p, Prefix(q, lines)), Prefix(p + q, lines);
    forall i | 0 <= i < |lines| ensures l[i] == r[i] {
      assert l[i] == p + (q + lines[i]);
    }
  }

  /** The prefixing of one entry: its own line, its nested lines, the rest. */
  lemma PrefixEntry(p: string, head: string, nested: seq<string>, rest: seq<string>)
    ensures Prefix(p, [head] + nested + rest) == [p + head] + Prefix(p, nested) + Prefix(p, rest)
  {
  }

  lemma IndentStep(level: nat)
    ensures Indent(level) + Indent(1) == Indent(level + 1)
  {
    var a, b := Indent(level) + Indent(1), Indent(level + 1);
    assert |a| == |b|;
    forall i | 0 <= i < |a| ensures a[i] == b[i] {
    }
  }

  /** Rendering at level `n` is rendering at level 0 with `2n` spaces in front
      of every line. */
  lemma {:induction false} RenderShift(data: Json, level: nat)
    ensures Render(data, level) == Prefix(Indent(level), Render(data, 0))
    decreases data, 1
  {
    assert Indent(0) == "";
    match data
    case Obj(fields) =>
      if |fields| > 0 {
        FieldLinesShift(fields, level);
      } else {
        assert Indent(0) + ScalarText(data) == ScalarText(data);
      }
    case Arr(items) =>
      if |items| > 0 {
        ItemLinesShift(items, level);
      } else {
        assert Indent(0) + ScalarText(data) == ScalarText(data);
      }
    case _ =>
      assert Indent(0) + ScalarText(data) == ScalarText(data);
  }

  /** The nested rendering a container value gets, at `level + 1`, in terms of
      its rendering at level 1. */
  lemma {:induction false} NestedShift(v: Json, level: nat)
    ensures Render(v, level + 1) == Prefix(Indent(level), Render(v, 1))
    decreases v, 2
  {
    RenderShift(v, level + 1);
    RenderShift(v, 1);
    PrefixTwice(Indent(level), Indent(1), Render(v, 0));
    IndentStep(level);
  }

  lemma {:induction false} FieldLinesShift(fields: Fields, level: nat)
    ensures FieldLines(fields, level) == Prefix(Indent(level), FieldLines(fields, 0))
    decreases fields, 0
  {
    if |fields| > 0 {
      assert fields[0] in fields;
      assert fields[0].1 < fields[0];
      var k, v := fields[0].0, fields[0].1;
      var nested := if IsContainer(v) then Render(v, level + 1) else [];
      var nested0 := if IsContainer(v) then Render(v, 1) else [];
      if IsContainer(v) {
        NestedShift(v, level);
      }
      FieldLinesShift(fields[1..], level);
      assert FieldLines(fields, level) == [Indent(level) + FieldText(k, v)] + nested + FieldLines(fields[1..], level);
      assert FieldLines(fields, 0) == [Indent(0) + FieldText(k, v)] + nested0 + FieldLines(fields[1..], 0);
      assert Indent(0) + FieldText(k, v) == FieldText(k, v);
      PrefixEntry(Indent(level), FieldText(k, v), nested0, FieldLines(fields[1..], 0));
    }
  }

  lemma {:induction false} ItemLinesShift(items: seq<Json>, level: nat)
    ensures ItemLines(items, level) == Prefix(Indent(level), ItemLines(items, 0))
    decreases items, 0
  {
    if |items| > 0 {
      assert items[0] in items;
      var v := items[0];
      var nested := if IsContainer(v) then Render(v, level + 1) else [];
      var nested0 := if IsContainer(v) then Render(v, 1) else [];
      if IsContainer(v) {
        NestedShift(v, level);
      }
      ItemLinesShift(items[1..], level);
      assert ItemLines(items, level) == [Indent(level) + ItemText(v)] + nested + ItemLines(items[1..], level);
      assert ItemLines(items, 0) == [Indent(0) + ItemText(v)] + nested0 + ItemLines(items[1..], 0);
      assert Indent(0) + ItemText(v) == ItemText(v);
      PrefixEntry(Indent(level), ItemText(v), nested0, ItemLines(items[1..], 0));
    }
  }

  // ---------------------------------------------------------------------
  // Entries at a level

  /** The lines that belong to `level` itself rather than to a deeper level:
      those with no space where the level's indentation ends. */
  function AtLevel(lines: seq<string>, level: nat): seq<string> {
    if |lines| == 0 then []
    else
      (if |lines[0]| > 2 * level && lines[0][2 * level] != ' ' then [lines[0]] else [])
      + AtLevel(lines[1..], level)
  }

  lemma {:induction false} AtLevelAppend(a: seq<string>, b: seq<string>, level: nat)
    ensures AtLevel(a + b, level) == AtLevel(a, level) + AtLevel(b, level)
  {
    if |a| == 0 {
      assert a + b == b;
    } else {
      assert (a + b)[0] == a[0];
      assert (a + b)[1..] == a[1..] + b;
      AtLevelAppend(a[1..], b, level);
    }
  }

  lemma {:induction false} AtLevelOfDeeper(lines: seq<string>, level: nat)
    requires forall line :: line in lines ==> Indented(line, level + 1)
    ensures AtLevel(lines, level) == []
  {
    if |lines| > 0 {
      assert lines[0] in lines;
      assert lines[0][2 * level] == ' ';
      assert forall line :: line in lines[1..] ==> line in lines;
      AtLevelOfDeeper(lines[1..], level);
    }
  }

  /** One entry's contribution to the lines at its level: its own line,
      which has a dash where the indentation ends, and nothing from the lines
      nested below it. */
  lemma EntryStep(head: string, nested: seq<string>, rest: seq<string>, level: nat)
    requires |head| > 2 * level && head[2 * level] == '-'
    requires AtLevel(nested, level) == []
    ensures AtLevel([head] + nested + rest, level) == [head] + AtLevel(rest, level)
  {
    assert AtLevel([head], level) == [head];
    AtLevelAppend([head] + nested, rest, level);
    AtLevelAppend([head], nested, level);
  }

  /** The lines nested below a value sit deeper than its own level. */
  lemma NestedIsDeeper(v: Json, level: nat)
    ensures AtLevel(if IsContainer(v) then Render(v, level + 1) else [], level) == []
  {
    if IsContainer(v) {
      RenderIndented(v, level + 1);
      AtLevelOfDeeper(Render(v, level + 1), level);
    }
  }

  /** The entry lines a dict's keys get at `level`, one per key. */
  function FieldHeads(fields: Fields, level: nat): (r: seq<string>)
    ensures |r| == |fields|
    ensures forall i :: 0 <= i < |fields| ==> r[i] == FieldLine(fields[i].0, fields[i].1, level)
  {
    if |fields| == 0 then [] else [FieldLine(fields[0].0, fields[0].1, level)] + FieldHeads(fields[1..], level)
  }

  /** The entry lines a list's items get at `level`, one per item. */
  function ItemHeads(items: seq<Json>, level: nat): (r: seq<string>)
    ensures |r| == |items|
    ensures forall i :: 0 <= i < |items| ==> r[i] == ItemLine(items[i], level)
  {
    if |items| == 0 then [] else [ItemLine(items[0], level)] + ItemHeads(items[1..], level)
  }

  /** A dict's entries at its own level: one `- **k**:` line per key, in
      order. Nested containers' lines all sit one level deeper, and no entry
      is dropped or repeated. */
  lemma {:induction false} FieldEntries(fields: Fields, level: nat)
    ensures AtLevel(FieldLines(fields, level), level) == FieldHeads(fields, level)
  {
    if |fields| > 0 {
      var k, v := fields[0].0, fields[0].1;
      var nested := if IsContainer(v) then Render(v, level + 1) else [];
      var head := FieldLine(k, v, level);
      NestedIsDeeper(v, level);
      FieldEntries(fields[1..], level);
      assert FieldLines(fields, level) == [head] + nested + FieldLines(fields[1..], level);
      assert head[2 * level] == '-';
      EntryStep(head, nested, FieldLines(fields[1..], level), level);
    }
  }

  /** A list's items at its own level: one `- ` line per item, in order. */
  lemma {:induction false} ItemEntries(items: seq<Json>, level: nat)
    ensures AtLevel(ItemLines(items, level), level) == ItemHeads(items, level)
  {
    if |items| > 0 {
      var v := items[0];
      var nested := if IsContainer(v) then Render(v, level + 1) else [];
      var head := ItemLine(v, level);
      NestedIsDeeper(v, level);
      ItemEntries(items[1..], level);
      assert ItemLines(items, level) == [head] + nested + ItemLines(items[1..], level);
      assert head[2 * level] == '-';
      EntryStep(head, nested, ItemLines(items[1..], level), level);
    }
  }

  /** A non-empty dict or list renders with exactly one entry line per key or
      item at its own level, in order; everything else it renders sits deeper. */
  lemma RenderEntries(data: Json, level: nat)
    ensures data.Obj? && |data.fields| > 0 ==>
              AtLevel(Render(data, level), level) == FieldHeads(data.fields, level)
    ensures data.Arr? && |data.items| > 0 ==>
              AtLevel(Render(data, level), level) == ItemHeads(data.items, level)
  {
    match data
    case Obj(fields) =>
      if |fields| > 0 { FieldEntries(fields, level); }
    case Arr(items) =>
      if |items| > 0 { ItemEntries(items, level); }
    case _ =>
  }

  /** An empty dict or list is a single marker line; a scalar is a single
      backticked line; anything renders to at least one line. */
  lemma RenderShape(data: Json, level: nat)
    ensures |Render(data, level)| >= 1
    ensures data == Obj([]) ==> Render(data, level) == [Indent(level) + "_empty object_"]
    ensures data == Arr([]) ==> Render(data, level) == [Indent(level) + "_empty list_"]
    ensures !IsContainer(data) ==> Render(data, level) == [Indent(level) + "`" + Show(data) + "`"]
  {
    match data
    case Obj(fields) =>
      if |fields| > 0 {
        assert FieldLines(fields, level)[0] == FieldLine(fields[0].0, fields[0].1, level);
      }
    case Arr(items) =>
      if |items| > 0 {
        assert ItemLines(items, level)[0] == ItemLine(items[0], level);
      }
    case _ =>
      assert Render(data, level) == [Indent(level) + ScalarText(data)];
      assert ScalarText(data) == "`" + Show(data) + "`";
      assert Indent(level) + ("`" + Show(data) + "`") == Indent(level) + "`" + Show(data) + "`";
  }

  /** A `null` dict value prints as `null`, a `null` list item as `None`. */
  lemma NullRendering(k: string)
    ensures Render(Obj([(k, Null)]), 0) == ["- **" + k + "**: `null`"]
    ensures Render(Arr([Null]), 0) == ["- `None`"]
  {
    assert Indent(0) == "";
    assert FieldLine(k, Null, 0) == "- **" + k + "**: `null`";
    assert FieldLines([(k, Null)], 0) == [FieldLine(k, Null, 0)] + FieldLines([], 0) by {
      assert [(k, Null)][1..] == [];
    }
    assert Show(Null) == "None";
    assert ItemLine(Null, 0) == "- `None`";
    assert ItemLines([Null], 0) == [ItemLine(Null, 0)] + ItemLines([], 0) by {
      assert [Null][1..] == [];
    }
  }

  /** The Markdown text is never empty and ends with the line terminator. */
  lemma MarkdownNeverEmpty(data: Json, level: nat)
    ensures |JsonToMarkdown(data, level)| > 0
    ensures |JsonToMarkdown(data, level)| >= |NL|
    ensures JsonToMarkdown(data, level)[|JsonToMarkdown(data, level)| - |NL|..] == NL
  {
    RenderShape(data, level);
    TextEndsWithNL(Render(data, level));
  }

  lemma {:induction false} TextEndsWithNL(lines: seq<string>)
    requires |lines| > 0
    ensures |Text(lines)| >= |NL|
    ensures Text(lines)[|Text(lines)| - |NL|..] == NL
  {
    if |lines| > 1 {
      TextEndsWithNL(lines[1..]);
    }
  }

  // ---------------------------------------------------------------------
  // Additional Details

  /** The keys the challenge panel shows in its own sections. */
  const ChallengeKnownKeys: seq<string> :=
    ["name", "id", "difficulty", "points", "solved", "description",
     "hasDocker", "docker_image", "docker_port", "filename"]

  /** The keys each event's summary in the saved event list shows itself. */
  const EventKnownKeys: seq<string> := ["name", "id", "status", "format", "starts_at", "ends_at"]

  /** The entries whose keys are not among `known`, in their original order. */
  function ExtraFields(fields: Fields, known: seq<string>): Fields {
    if |fields| == 0 then []
    else (if fields[0].0 in known then [] else [fields[0]]) + ExtraFields(fields[1..], known)
  }

  /** `- **k**: `v``, one per extra entry. */
  function DetailLines(fields: Fields, known: seq<string>): seq<string> {
    var extra := ExtraFields(fields, known);
    seq(|extra|, i requires 0 <= i < |extra| => "- **" + extra[i].0 + "**: `" + Show(extra[i].1) + "`")
  }

  lemma {:induction false} ExtraFieldsAppend(a: Fields, b: Fields, known: seq<string>)
    ensures ExtraFields(a + b, known) == ExtraFields(a, known) + ExtraFields(b, known)
  {
    if |a| == 0 {
      assert a + b == b;
    } else {
      assert (a + b)[0] == a[0];
      assert (a + b)[1..] == a[1..] + b;
      ExtraFieldsAppend(a[1..], b, known);
    }
  }

  lemma {:induction false} ExtraFieldsMembers(fields: Fields, known: seq<string>)
    ensures forall p :: p in ExtraFields(fields, known) <==> p in fields && p.0 !in known
  {
    if |fields| > 0 {
      ExtraFieldsMembers(fields[1..], known);
      assert fields == [fields[0]] + fields[1..];
    }
  }

  lemma KeysAppend(a: Fields, b: Fields)
    ensures Keys(a + b) == Keys(a) + Keys(b)
  {
    assert |Keys(a + b)| == |Keys(a) + Keys(b)|;
    forall i | 0 <= i < |a + b| ensures Keys(a + b)[i] == (Keys(a) + Keys(b))[i] {
      if i >= |a| {
        assert (a + b)[i] == b[i - |a|];
      }
    }
  }

  lemma {:induction false} ExtraFieldsKeys(fields: Fields, known: seq<string>, k: string)
    ensures HasKey(ExtraFields(fields, known), k) <==> HasKey(fields, k) && k !in known
  {
    if |fields| > 0 {
      var head := if fields[0].0 in known then [] else [fields[0]];
      ExtraFieldsKeys(fields[1..], known, k);
      KeysAppend(head, ExtraFields(fields[1..], known));
      assert Keys(fields) == [fields[0].0] + Keys(fields[1..]);
    }
  }

  lemma {:induction false} ExtraFieldsDistinct(fields: Fields, known: seq<string>)
    requires DistinctKeys(fields)
    ensures DistinctKeys(ExtraFields(fields, known))
  {
    if |fields| > 0 {
      TailDistinct(fields);
      var rest := ExtraFields(fields[1..], known);
      ExtraFieldsDistinct(fields[1..], known);
      if fields[0].0 !in known {
        ExtraFieldsKeys(fields[1..], known, fields[0].0);
        ConsDistinct(fields[0], rest);
      }
    }
  }

  lemma ConsDistinct(p: (string, Json), rest: Fields)
    requires DistinctKeys(rest)
    requires !HasKey(rest, p.0)
    ensures DistinctKeys([p] + rest)
  {
    var r := [p] + rest;
    forall i, j | 0 <= i < j < |r| ensures r[i].0 != r[j].0 {
      assert r[j] == rest[j - 1];
      if i == 0 {
        assert Keys(rest)[j - 1] == rest[j - 1].0;
      } else {
        assert r[i] == rest[i - 1];
      }
    }
  }

  /** "Additional Details" lists exactly the entries whose keys are not
      well-known, with their values, in the dict's order (the filter of a
      concatenation is the concatenation of the filters, and a single entry
      is kept exactly when its key is not well-known), and a dict's key
      appears there at most once. */
  lemma AdditionalDetailsExact(fields: Fields, known: seq<string>)
    ensures forall p :: p in ExtraFields(fields, known) <==> p in fields && p.0 !in known
    ensures forall k :: HasKey(ExtraFields(fields, known), k) <==> HasKey(fields, k) && k !in known
    ensures forall a, b :: a + b == fields ==> ExtraFields(fields, known) == ExtraFields(a, known) + ExtraFields(b, known)
    ensures forall p :: ExtraFields([p], known) == (if p.0 in known then [] else [p])
    ensures DistinctKeys(fields) ==> DistinctKeys(ExtraFields(fields, known))
    ensures |DetailLines(fields, known)| == |ExtraFields(fields, known)|
  {
    ExtraFieldsMembers(fields, known);
    forall k ensures HasKey(ExtraFields(fields, known), k) <==> HasKey(fields, k) && k !in known {
      ExtraFieldsKeys(fields, known, k);
    }
    forall a, b | a + b == fields ensures ExtraFields(fields, known) == ExtraFields(a, known) + ExtraFields(b, known) {
      ExtraFieldsAppend(a, b, known);
    }
    forall p: (string, Json) ensures ExtraFields([p], known) == (if p.0 in known then [] else [p]) {
      assert [p][1..] == [];
    }
    if DistinctKeys(fields) {
      ExtraFieldsDistinct(fields, known);
    }
  }

  /** The challenge panel (`display_challenge_details`), which always ends
      with the "Additional Details" section. */
  function ChallengeDetails(c: Fields): (md: string)
    ensures |md| >= |AdditionalDetails(c)|
    ensures md[|md| - |AdditionalDetails(c)|..] == AdditionalDetails(c)
  {
    var desc := GetOr(c, "description", Str(""));
    var filename := GetOr(c, "filename", Str(""));
    "## \U{1F6A9} " + Show(GetOr(c, "name", Str("Unknown"))) + NL + NL
    + "**ID**: " + Show(GetOr(c, "id", Str("N/A"))) + NL + NL
    + "**Difficulty**: " + Show(GetOr(c, "difficulty", Str("N/A"))) + NL + NL
    + "**Points**: " + Show(GetOr(c, "points", Str("N/A"))) + NL + NL
    + "**Solved**: " + Show(GetOr(c, "solved", Bool(false))) + NL + NL
    + (if Truthy(desc) then "### Description" + NL + Show(desc) + NL + NL else "")
    + (if Truthy(GetOr(c, "hasDocker", Null)) then
         "### \U{1F433} Docker Info" + NL
         + "- **Image**: `" + Show(GetOr(c, "docker_image", Str("N/A"))) + "`" + NL
         + "- **Port**: `" + Show(GetOr(c, "docker_port", Str("N/A"))) + "`" + NL + NL
       else "")
    + (if Truthy(filename) then "### \U{1F4C1} Files" + NL + "- `" + Show(filename) + "`" + NL + NL else "")
    + AdditionalDetails(c)
  }

  function AdditionalDetails(c: Fields): string {
    "### Additional Details" + NL + NL + Text(DetailLines(c, ChallengeKnownKeys))
  }

  /** The lines of the "Additional Details" section that ends the panel do
      not depend on the values of the well-known keys. */
  lemma ChallengeDetailsEndsWithExtras(c: Fields, k: string, v: Json)
    requires k in ChallengeKnownKeys
    ensures DetailLines(SetKey(c, k, v), ChallengeKnownKeys) == DetailLines(c, ChallengeKnownKeys)
  {
    ExtraFieldsSetKnown(c, k, v, ChallengeKnownKeys);
  }

  lemma {:induction false} ExtraFieldsSetKnown(fields: Fields, k: string, v: Json, known: seq<string>)
    requires k in known
    ensures ExtraFields(SetKey(fields, k, v), known) == ExtraFields(fields, known)
  {
    if |fields| > 0 && fields[0].0 != k {
      ExtraFieldsSetKnown(fields[1..], k, v, known);
      assert SetKey(fields, k, v) == [fields[0]] + SetKey(fields[1..], k, v);
      assert SetKey(fields, k, v)[1..] == SetKey(fields[1..], k, v);
    } else if |fields| > 0 {
      assert SetKey(fields, k, v)[1..] == fields[1..];
    } else {
      assert SetKey(fields, k, v) == [(k, v)];
      assert ExtraFields([(k, v)], known) == [] by { assert [(k, v)][1..] == []; }
    }
  }

  /** One event's section of the saved event list. */
  function EventSection(e: Fields): string {
    "## \U{1F6A9} " + Show(GetOr(e, "name", Str("Unknown"))) + NL
    + "**ID**: " + Show(GetOr(e, "id", Null)) + NL
    + "**Status**: " + Show(GetOr(e, "status", Null)) + NL
    + "**Format**: " + Show(GetOr(e, "format", Null)) + NL
    + "**Dates**: " + Show(GetOr(e, "starts_at", Null)) + " to " + Show(GetOr(e, "ends_at", Null)) + NL + NL
    + Text(DetailLines(e, EventKnownKeys))
    + NL + "---" + NL + NL
  }

  /** What one entry of the list contributes: a section for a dict, nothing
      for anything else. */
  function EntrySection(j: Json): string {
    match j
    case Obj(e) => EventSection(e)
    case _ => ""
  }

  function EventSections(events: seq<Json>): string {
    if |events| == 0 then "" else EntrySection(events[0]) + EventSections(events[1..])
  }

  /** The Markdown the event screen saves for its list of events: the
      heading, then one section per dict of the list, in list order. */
  function EventsMarkdown(events: seq<Json>): (md: string)
    ensures md == "# CTF Events" + NL + NL + Sections(DictsOf(events))
  {
    EventSectionsOfDicts(events);
    "# CTF Events" + NL + NL + EventSections(events)
  }

  /** The dicts of a list, in order. */
  function DictsOf(events: seq<Json>): seq<Fields> {
    if |events| == 0 then []
    else (if events[0].Obj? then [events[0].fields] else []) + DictsOf(events[1..])
  }

  /** One section per dict. */
  function Sections(dicts: seq<Fields>): string {
    if |dicts| == 0 then "" else EventSection(dicts[0]) + Sections(dicts[1..])
  }

  lemma {:induction false} DictsOfMembers(events: seq<Json>)
    ensures forall e :: e in DictsOf(events) <==> Obj(e) in events
    ensures |DictsOf(events)| <= |events|
  {
    if |events| > 0 {
      DictsOfMembers(events[1..]);
      assert events == [events[0]] + events[1..];
    }
  }

  lemma SectionsCons(e: Fields, rest: seq<Fields>)
    ensures Sections([e] + rest) == EventSection(e) + Sections(rest)
  {
    assert ([e] + rest)[1..] == rest;
  }

  lemma {:induction false} EventSectionsOfDicts(events: seq<Json>)
    ensures EventSections(events) == Sections(DictsOf(events))
  {
    if |events| > 0 {
      EventSectionsOfDicts(events[1..]);
      var rest := DictsOf(events[1..]);
      var tail := EventSections(events[1..]);
      assert EventSections(events) == EntrySection(events[0]) + tail;
      if events[0].Obj? {
        var e := events[0].fields;
        assert DictsOf(events) == [e] + rest;
        SectionsCons(e, rest);
        assert EntrySection(events[0]) + tail == EventSection(e) + Sections(rest);
      } else {
        assert DictsOf(events) == rest;
        assert EntrySection(events[0]) == "";
      }
    }
  }

  /** The saved event list has a section for exactly the dicts of the list;
      a list without dicts saves the heading alone. */
  lemma EventsMarkdownSections(events: seq<Json>)
    ensures forall e :: e in DictsOf(events) <==> Obj(e) in events
    ensures (forall j :: j in events ==> !j.Obj?) ==> EventsMarkdown(events) == "# CTF Events" + NL + NL
  {
    DictsOfMembers(events);
    if forall j :: j in events ==> !j.Obj? {
      NoDicts(events);
    }
  }

  lemma {:induction false} NoDicts(events: seq<Json>)
    requires forall j :: j in events ==> !j.Obj?
    ensures DictsOf(events) == []
  {
    if |events| > 0 {
      assert events[0] in events;
      assert forall j :: j in events[1..] ==> j in events;
      NoDicts(events[1..]);
    }
  }
}

=== FILE: pytext.dfy ===
/** The parts of Python's `str()` and `int()` the client relies on: decimal
    printing and parsing of integers, and the string form of a JSON value that
    an f-string interpolation produces.
 */
module PyText {
  import opened JsonValue

  predicate IsDigit(c: char) {
    '0' <= c <= '9'
  }

  predicate AllDigits(s: string) {
    forall i :: 0 <= i < |s| ==> IsDigit(s[i])
  }

  function DigitChar(d: nat): (c: char)
    requires d < 10
    ensures IsDigit(c)
  {
    ['0', '1', '2', '3', '4', '5', '6', '7', '8', '9'][d]
  }

  function DigitValue(c: char): (d: nat)
    requires IsDigit(c)
    ensures d < 10
  {
    (c as int - '0' as int) as nat
  }

  /** Decimal digits of `n`, most significant first, without leading zeros. */
  function NatToString(n: nat): (s: string)
    ensures |s| > 0 && AllDigits(s)
  {
    if n < 10 then [DigitChar(n)] else NatToString(n / 10) + [DigitChar(n % 10)]
  }

  /** `str(n)` for an integer. */
  function IntToString(n: int): string {
    if n < 0 then "-" + NatToString(-n) else NatToString(n)
  }

  /** The number a string of decimal digits denotes. */
  function DigitsValue(s: string): nat
    requires AllDigits(s)
  {
    if |s| == 0 then 0 else DigitsValue(s[..|s| - 1]) * 10 + DigitValue(s[|s| - 1])
  }

  /** `int(s)` for a string: an optional sign followed by one or more ASCII
      digits; `None` where Python raises ValueError. */
  function ParseInt(s: string): Option<int> {
    if |s| > 0 && (s[0] == '+' || s[0] == '-') then
      match ParseDigits(s[1..])
      case Some(n) => Some(if s[0] == '-' then -n else n)
      case None => None
    else
      ParseDigits(s)
  }

  function ParseDigits(s: string): (r: Option<int>)
    ensures r.Some? ==> r.value >= 0
  {
    if |s| > 0 && AllDigits(s) then Some(DigitsValue(s)) else None
  }

  lemma {:induction false} NatDigitsRoundTrip(n: nat)
    ensures DigitsValue(NatToString(n)) == n
  {
    if n >= 10 {
      var s := NatToString(n);
      var front := NatToString(n / 10);
      assert s[..|s| - 1] == front;
      NatDigitsRoundTrip(n / 10);
    }
  }

  /** Printing an integer and parsing it back gives the integer: the row keys
      the tables store as `str(idx)` come back as `idx`. */
  lemma IntRoundTrip(n: int)
    ensures ParseInt(IntToString(n)) == Some(n)
  {
    if n < 0 {
      var s := IntToString(n);
      assert s[1..] == NatToString(-n);
      NatDigitsRoundTrip(-n);
    } else {
      NatDigitsRoundTrip(n);
      assert NatToString(n)[0] != '+' && NatToString(n)[0] != '-' by {
        assert IsDigit(NatToString(n)[0]);
      }
    }
  }

  /** Distinct naturals print differently. */
  lemma NatToStringInjective(a: nat, b: nat)
    requires NatToString(a) == NatToString(b)
    ensures a == b
  {
    NatDigitsRoundTrip(a);
    NatDigitsRoundTrip(b);
  }

  /** `needle in hay` for two strings. */
  predicate IsInfix(needle: string, hay: string) {
    (|needle| <= |hay| && hay[..|needle|] == needle)
    || (|hay| > 0 && IsInfix(needle, hay[1..]))
  }

  /** Python's `int(x)` inside `try ... except (ValueError, TypeError)`, with
      the failure mapped to 0: booleans give 1 or 0, floats truncate toward
      zero, strings are parsed, and None, lists and dicts fail. */
  function IntOrZero(x: Json): (n: int)
    ensures x.Int? ==> n == x.i
    ensures x.Num? && x.r >= 0.0 ==> n as real <= x.r < n as real + 1.0
    ensures x.Num? && x.r < 0.0 ==> n as real - 1.0 < x.r <= n as real
    ensures x.Str? && ParseInt(x.s).Some? ==> n == ParseInt(x.s).value
    ensures x.Str? && ParseInt(x.s).None? ==> n == 0
    ensures x.Bool? ==> n == (if x.b then 1 else 0)
    ensures forall k :: x == Str(IntToString(k)) ==> n == k
    ensures x.Null? || x.Arr? || x.Obj? ==> n == 0
  {
    match x
    case Int(i) => i
    case Bool(b) => if b then 1 else 0
    case Num(r) => if r >= 0.0 then r.Floor else -((-r).Floor)
    case Str(s) =>
      assert forall k :: ParseInt(IntToString(k)) == Some(k) by {
        forall k ensures ParseInt(IntToString(k)) == Some(k) { IntRoundTrip(k); }
      }
      (match ParseInt(s)
       case Some(n) => n
       case None => 0)
    case _ => 0
  }

  /** Digits after the decimal point of a fraction in [0, 1), at most `fuel` of them. */
  function FractionDigits(f: real, fuel: nat): string
    requires 0.0 <= f < 1.0
    decreases fuel
  {
    if f == 0.0 || fuel == 0 then ""
    else
      var scaled := f * 10.0;
      var d := scaled.Floor;
      assert 0 <= d < 10;
      [DigitChar(d as nat)] + FractionDigits(scaled - d as real, fuel - 1)
  }

  /** `str(x)` for a float: integral values print as `n.0`, others as their
      decimal expansion cut at 17 fractional digits. */
  function RealToString(r: real): string {
    var a := if r < 0.0 then -r else r;
    var whole := a.Floor;
    var frac := FractionDigits(a - whole as real, 17);
    (if r < 0.0 then "-" else "") + NatToString(whole) + "." + (if frac == "" then "0" else frac)
  }

  /** `str(x)` for a decoded JSON value, as an f-string interpolation prints it. */
  function Show(j: Json): string {
    match j
    case Str(s) => s
    case _ => Repr(j)
  }

  /** `repr(x)`: how a value prints inside a list or dict. */
  function Repr(j: Json): string
    decreases j, 1
  {
    match j
    case Null => "None"
    case Bool(b) => if b then "True" else "False"
    case Int(i) => IntToString(i)
    case Num(r) => RealToString(r)
    case Str(s) => "'" + s + "'"
    case Arr(items) => "[" + ReprItems(items) + "]"
    case Obj(fields) => "{" + ReprFields(fields) + "}"
  }

  function ReprItems(items: seq<Json>): string
    decreases items, 0
  {
    if |items| == 0 then ""
    else
      assert items[0] in items;
      Repr(items[0]) + (if |items| == 1 then "" else ", " + ReprItems(items[1..]))
  }

  function ReprFields(fields: Fields): string
    decreases fields, 0
  {
    if |fields| == 0 then ""
    else
      assert fields[0] in fields;
      assert fields[0].1 < fields[0];
      "'" + fields[0].0 + "': " + Repr(fields[0].1)
      + (if |fields| == 1 then "" else ", " + ReprFields(fields[1..]))
  }
}

=== FILE: state.dfy ===
/** The client's persisted selection state (htb_mcp_client.py,
    `HTBMCPClient.__init__`/`load_state`, `HTBMCPApp.__init__` and
    `save_app_state`), the Play-button rule of the main menu, the merge of
    auto-execution arguments into the argument editor, and the names of saved
    artifacts.

    Reading and writing the state file are left to the caller: a load is
    given the decoded file (`None` when it is missing or does not decode), and
    a save is the state dict that would be written.
 */
module AppState {
  import opened JsonValue
  import Template

  /** The four entries `save_app_state` writes back. */
  const SelectionKeys: seq<string> :=
    ["selected_event", "selected_team", "selected_challenge", "container_status"]

  /** The state a client starts from, before the file is loaded. */
  const Defaults: Fields :=
    [("selected_event", Null), ("selected_team", Null), ("selected_challenge", Null),
     ("challenges_cache", Arr([])), ("container_status", Null)]

  // ---------------------------------------------------------------------
  // Loading

  /** One element of a list given to `dict.update`: a two-element list with a
      string first, a two-character string, or a two-key dict (whose
      iteration yields its keys) gives a pair; anything else makes `update`
      raise. */
  function PairOf(item: Json): Option<(string, Json)> {
    match item
    case Arr(xs) => if |xs| == 2 && xs[0].Str? then Some((xs[0].s, xs[1])) else None
    case Str(s) => if |s| == 2 then Some(([s[0]], Str([s[1]]))) else None
    case Obj(f) => if |f| == 2 then Some((f[0].0, Str(f[1].0))) else None
    case _ => None
  }

  /** `state.update(items)` for a list: pairs are assigned in order up to the
      first element that is not a pair, where `update` raises and the
      assignments already made stay. */
  function UpdateFromPairs(state: Fields, items: seq<Json>): Fields
    decreases |items|
  {
    if |items| == 0 then state
    else match PairOf(items[0])
      case None => state
      case Some(p) => UpdateFromPairs(SetKey(state, p.0, p.1), items[1..])
  }

  /** The state after `load_state`, given the decoded state file. A decoded
      dict is merged over the defaults with `update`; a missing or undecodable
      file, or any value `update` rejects outright, leaves the defaults.
      Whatever the file holds, the loaded state still has every default key,
      so the app's four `state.get` reads always find an entry. */
  function LoadState(persisted: Option<Json>): (state: Fields)
    ensures forall k :: HasKey(Defaults, k) ==> HasKey(state, k)
  {
    match persisted
    case Some(Obj(f)) => UpdateKeepsKeys(Defaults, f); Update(Defaults, f)
    case Some(Arr(items)) => PairsKeepKeys(Defaults, items); UpdateFromPairs(Defaults, items)
    case _ => Defaults
  }

  /** `update` never removes a key. */
  lemma {:induction false} UpdateKeepsKeys(base: Fields, extra: Fields)
    ensures forall k :: HasKey(base, k) ==> HasKey(Update(base, extra), k)
    decreases |extra|
  {
    if |extra| > 0 {
      SetKeyKeys(base, extra[0].0, extra[0].1);
      UpdateKeepsKeys(SetKey(base, extra[0].0, extra[0].1), extra[1..]);
    }
  }

  /** Neither does `update` with a list of pairs, wherever it stops. */
  lemma {:induction false} PairsKeepKeys(base: Fields, items: seq<Json>)
    ensures forall k :: HasKey(base, k) ==> HasKey(UpdateFromPairs(base, items), k)
    decreases |items|
  {
    if |items| > 0 && PairOf(items[0]).Some? {
      var p := PairOf(items[0]).value;
      SetKeyKeys(base, p.0, p.1);
      PairsKeepKeys(SetKey(base, p.0, p.1), items[1..]);
    }
  }

  /** Loading a dict: a loaded key overwrites its default and a key the file
      lacks keeps its default. */
  lemma LoadStateGet(f: Fields, k: string)
    requires DistinctKeys(f)
    ensures Get(LoadState(Some(Obj(f))), k) == (if HasKey(f, k) then Get(f, k) else Get(Defaults, k))
  {
    UpdateGet(Defaults, f, k);
  }

  /** Loading a dict keeps the default keys first, in their order, with the
      file's new keys after them in its order, all distinct; a load failure
      leaves the defaults untouched. */
  lemma LoadStateKeys(f: Fields)
    requires DistinctKeys(f)
    ensures Keys(LoadState(Some(Obj(f)))) == Keys(Defaults) + NewKeys(Keys(f), Keys(Defaults))
    ensures DistinctKeys(LoadState(Some(Obj(f))))
    ensures LoadState(None) == Defaults
  {
    UpdateKeys(Defaults, f);
    UpdateDistinct(Defaults, f);
  }

  // ---------------------------------------------------------------------
  // The app's selection

  /** The four values the app holds between screens. */
  datatype Selection = Selection(event: Json, team: Json, challenge: Json, container: Json)

  /** What `HTBMCPApp.__init__` reads from the state with `state.get`. */
  function SelectionOf(state: Fields): Selection {
    Selection(
      GetOr(state, "selected_event", Null),
      GetOr(state, "selected_team", Null),
      GetOr(state, "selected_challenge", Null),
      GetOr(state, "container_status", Null))
  }

  /** `save_app_state`: the app's four values assigned back into the state.
      Reading the selection back gives the app's values, and every other
      entry, the challenge cache among them, keeps its value. */
  function SaveAppState(state: Fields, sel: Selection): (saved: Fields)
    ensures SelectionOf(saved) == sel
    ensures forall k :: k !in SelectionKeys ==> Get(saved, k) == Get(state, k)
  {
    var s1 := SetKey(state, "selected_event", sel.event);
    var s2 := SetKey(s1, "selected_team", sel.team);
    var s3 := SetKey(s2, "selected_challenge", sel.challenge);
    var s4 := SetKey(s3, "container_status", sel.container);
    assert Get(s4, "selected_event") == Get(s3, "selected_event") == Get(s2, "selected_event") == Some(sel.event);
    assert Get(s4, "selected_team") == Get(s3, "selected_team") == Some(sel.team);
    assert Get(s4, "selected_challenge") == Some(sel.challenge);
    s4
  }

  /** The challenge cache is not among the entries saving writes. */
  lemma CacheNotSelection()
    ensures "challenges_cache" !in SelectionKeys
  {
    assert "challenges_cache"[1] != "container_status"[1];
  }

  /** Saving keeps the key order when the four entries are already present,
      as they are in any loaded state. */
  lemma SaveKeepsKeyOrder(state: Fields, sel: Selection)
    requires HasKey(state, "selected_event") && HasKey(state, "selected_team")
    requires HasKey(state, "selected_challenge") && HasKey(state, "container_status")
    ensures Keys(SaveAppState(state, sel)) == Keys(state)
  {
    var s1 := SetKey(state, "selected_event", sel.event);
    var s2 := SetKey(s1, "selected_team", sel.team);
    var s3 := SetKey(s2, "selected_challenge", sel.challenge);
    SetKeyKeys(state, "selected_event", sel.event);
    SetKeyKeys(s1, "selected_team", sel.team);
    SetKeyKeys(s2, "selected_challenge", sel.challenge);
    SetKeyKeys(s3, "container_status", sel.container);
  }

  /** Saving never introduces a duplicate key. */
  lemma SaveKeepsDistinct(state: Fields, sel: Selection)
    requires DistinctKeys(state)
    ensures DistinctKeys(SaveAppState(state, sel))
  {
    var s1 := SetKey(state, "selected_event", sel.event);
    var s2 := SetKey(s1, "selected_team", sel.team);
    var s3 := SetKey(s2, "selected_challenge", sel.challenge);
    SetKeyDistinct(state, "selected_event", sel.event);
    SetKeyDistinct(s1, "selected_team", sel.team);
    SetKeyDistinct(s2, "selected_challenge", sel.challenge);
    SetKeyDistinct(s3, "container_status", sel.container);
  }

  /** A restart restores the selection: the state written by
      `save_app_state`, read back by `load_state` and the app's constructor,
      gives the same four values, and the challenge cache survives. */
  lemma RestartRestoresSelection(state: Fields, sel: Selection)
    requires DistinctKeys(state)
    ensures SelectionOf(LoadState(Some(Obj(SaveAppState(state, sel))))) == sel
    ensures HasKey(state, "challenges_cache") ==>
              Get(LoadState(Some(Obj(SaveAppState(state, sel)))), "challenges_cache")
              == Get(state, "challenges_cache")
  {
    var saved := SaveAppState(state, sel);
    SaveKeepsDistinct(state, sel);
    ReloadSaved(saved);
    if HasKey(state, "challenges_cache") {
      CacheNotSelection();
      assert Get(saved, "challenges_cache").Some?;
      ReloadKeeps(saved, "challenges_cache");
    }
  }

  /** Loading a saved dict keeps the value of each of its keys. */
  lemma ReloadKeeps(saved: Fields, k: string)
    requires DistinctKeys(saved) && HasKey(saved, k)
    ensures Get(LoadState(Some(Obj(saved))), k) == Get(saved, k)
  {
    LoadStateGet(saved, k);
  }

  /** Reloading a dict gives the app the selection that dict holds: a key it
      holds keeps its value, and a key it lacks reads as `None` both before
      and after the load, since every selection default is `None`. */
  lemma ReloadSaved(saved: Fields)
    requires DistinctKeys(saved)
    ensures SelectionOf(LoadState(Some(Obj(saved)))) == SelectionOf(saved)
  {
    assert Get(Defaults, "selected_event") == Some(Null);
    assert Get(Defaults, "selected_team") == Some(Null);
    assert Get(Defaults, "selected_challenge") == Some(Null);
    assert Get(Defaults, "container_status") == Some(Null);
    LoadStateGet(saved, "selected_event");
    LoadStateGet(saved, "selected_team");
    LoadStateGet(saved, "selected_challenge");
    LoadStateGet(saved, "container_status");
  }

  /** The Play button's rule: event, team and challenge all truthy, so Play
      is never enabled while any of the three is missing. */
  predicate CanPlay(sel: Selection)
    ensures CanPlay(sel) ==> sel.event != Null && sel.team != Null && sel.challenge != Null
  {
    Truthy(sel.event) && Truthy(sel.team) && Truthy(sel.challenge)
  }

  /** A value `update_display` can show: nothing, or a dict whose entries it
      reads with `.get`. Any other set value makes `.get` raise. */
  predicate Displayable(j: Json) {
    !Truthy(j) || j.Obj?
  }

  /** What `update_display` does to the Play button: it reads the name of
      each selection that is set and then the address of a set container
      status, raising AttributeError for any of them that is not a dict
      before Play is reached, and otherwise enables Play by `CanPlay`. Play
      ends up enabled exactly when all three selections are non-empty dicts
      and the container status is nothing or a dict; a set container status
      that is not a dict always makes the update raise. */
  function PlayButton(sel: Selection): (r: Result<bool>)
    ensures r == Ok(true) <==>
              sel.event.Obj? && sel.team.Obj? && sel.challenge.Obj? && Displayable(sel.container) && CanPlay(sel)
    ensures Truthy(sel.container) && !sel.container.Obj? ==> r.Raise?
    ensures r.Raise? ==> r.error == "AttributeError"
  {
    if !Displayable(sel.event) || !Displayable(sel.team) || !Displayable(sel.challenge)
       || !Displayable(sel.container) then
      Raise("AttributeError")
    else Ok(CanPlay(sel))
  }

  /** Which selection a list screen's Select button sets. */
  datatype Slot = EventSlot | TeamSlot | ChallengeSlot

  /** A Select button: the entry under the table cursor becomes the slot's
      selection when the cursor is within the screen's data; otherwise
      nothing changes. */
  function Choose(sel: Selection, slot: Slot, data: seq<Json>, cursor: int): (r: Selection)
    ensures !(0 <= cursor < |data|) ==> r == sel
    ensures r.container == sel.container
    ensures r.event == (if slot == EventSlot && 0 <= cursor < |data| then data[cursor] else sel.event)
    ensures r.team == (if slot == TeamSlot && 0 <= cursor < |data| then data[cursor] else sel.team)
    ensures r.challenge == (if slot == ChallengeSlot && 0 <= cursor < |data| then data[cursor] else sel.challenge)
  {
    if 0 <= cursor < |data| then
      match slot
      case EventSlot => sel.(event := data[cursor])
      case TeamSlot => sel.(team := data[cursor])
      case ChallengeSlot => sel.(challenge := data[cursor])
    else sel
  }

  /** The Play rule asks for each of the three selections to be truthy:
      never on a fresh start, never with any selection missing, whatever the
      container status. With a non-empty event and team dict selected and a
      container status that is nothing or a dict, choosing a non-empty
      challenge dict enables Play, while choosing a set entry that is not a
      dict makes the display update raise before Play is reached. */
  lemma PlayGate(sel: Selection, data: seq<Json>, cursor: int, c: Json)
    ensures sel.event == Null || sel.team == Null || sel.challenge == Null ==> !CanPlay(sel)
    ensures CanPlay(sel.(container := c)) == CanPlay(sel)
    ensures (Truthy(sel.event) && sel.event.Obj? && Truthy(sel.team) && sel.team.Obj? && Displayable(sel.container)
             && 0 <= cursor < |data| && Truthy(data[cursor]) && data[cursor].Obj?) ==>
              PlayButton(Choose(sel, ChallengeSlot, data, cursor)) == Ok(true)
    ensures (0 <= cursor < |data| && Truthy(data[cursor]) && !data[cursor].Obj?) ==>
              PlayButton(Choose(sel, ChallengeSlot, data, cursor)).Raise?
    ensures !Truthy(sel.team) ==> !CanPlay(Choose(sel, EventSlot, data, cursor))
  {
  }

  /** A fresh start selects nothing, so Play starts disabled. */
  lemma FreshStartCannotPlay()
    ensures SelectionOf(Defaults) == Selection(Null, Null, Null, Null)
    ensures !CanPlay(SelectionOf(Defaults))
  {
    assert Get(Defaults, "selected_event") == Some(Null);
    assert Get(Defaults, "selected_team") == Some(Null);
    assert Get(Defaults, "selected_challenge") == Some(Null);
    assert Get(Defaults, "container_status") == Some(Null);
  }

  /** On a fresh start the display update shows every selection as missing
      and leaves Play disabled, without raising. */
  lemma FreshStartPlayButton()
    ensures PlayButton(SelectionOf(Defaults)) == Ok(false)
  {
    FreshStartCannotPlay();
    assert Displayable(Null);
  }

  // ---------------------------------------------------------------------
  // Auto-execution arguments

  /** Merging `auto_exec_args` into the argument editor: the editor's text,
      decoded, is updated with the arguments and written back. The result is
      the editor's new content, or `None` when it is left as it was: no
      arguments, text that does not decode, or a decoded value that is not a
      dict (its missing `update` raises and the error is swallowed). */
  function MergeAutoExec(editor: Option<Json>, args: Fields): (r: Option<Json>)
    ensures r.Some? <==> |args| > 0 && editor.Some? && editor.value.Obj?
    ensures r.Some? ==> r.value.Obj? && forall k :: HasKey(editor.value.fields, k) ==> HasKey(r.value.fields, k)
  {
    if |args| == 0 then None
    else match editor
      case Some(Obj(f)) => UpdateKeepsKeys(f, args); Some(Obj(Update(f, args)))
      case _ => None
  }

  /** Merging keeps the editor's keys in their order and appends the new
      argument keys in theirs; an argument's value wins over the editor's. */
  lemma MergeAutoExecSemantics(editor: Option<Json>, args: Fields, k: string)
    requires DistinctKeys(args)
    ensures MergeAutoExec(editor, args).Some? <==> |args| > 0 && editor.Some? && editor.value.Obj?
    ensures MergeAutoExec(editor, args).Some? ==>
              var m := MergeAutoExec(editor, args).value.fields;
              && Keys(m) == Keys(editor.value.fields) + NewKeys(Keys(args), Keys(editor.value.fields))
              && Get(m, k) == (if HasKey(args, k) then Get(args, k) else Get(editor.value.fields, k))
  {
    if MergeAutoExec(editor, args).Some? {
      UpdateGet(editor.value.fields, args, k);
      UpdateKeys(editor.value.fields, args);
    }
  }

  /** Merging the same arguments into the generated template (the editor's
      initial content) changes no template value, because the template has
      already given each argument's key its value; it only appends the
      arguments the schema does not declare. */
  lemma MergeIntoTemplate(schema: Option<Fields>, ctx: Template.Context, t: Fields, k: string)
    requires Template.Generate(schema, ctx) == Ok(t)
    requires DistinctKeys(ctx.overrides) && |ctx.overrides| > 0
    ensures MergeAutoExec(Some(Obj(t)), ctx.overrides).Some?
    ensures HasKey(t, k) ==> Get(MergeAutoExec(Some(Obj(t)), ctx.overrides).value.fields, k) == Get(t, k)
    ensures Keys(MergeAutoExec(Some(Obj(t)), ctx.overrides).value.fields)
            == Keys(t) + NewKeys(Keys(ctx.overrides), Keys(t))
  {
    MergeAutoExecSemantics(Some(Obj(t)), ctx.overrides, k);
    Template.TemplateShape(schema, ctx);
    if HasKey(t, k) && HasKey(ctx.overrides, k) {
      var i :| 0 <= i < |t| && t[i] == (k, Get(t, k).value);
      assert Keys(t)[i] == k;
      var props := Get(schema.value, "properties").value.fields;
      assert Keys(props)[i] == k;
      assert props[i].0 == k;
      Template.Precedence(k, props[i].1.fields, ctx);
    }
  }

  // ---------------------------------------------------------------------
  // Saved artifacts

  /** `f"{tool_name}-{timestamp}{ext}"`. */
  function ArtifactName(tool: string, stamp: string, ext: string): string {
    tool + "-" + stamp + ext
  }

  /** Two saves of one tool's output with different timestamps get different
      names, and the name ends with the extension. */
  lemma ArtifactNamesDistinct(tool: string, s1: string, s2: string, ext: string)
    ensures ArtifactName(tool, s1, ext) == ArtifactName(tool, s2, ext) ==> s1 == s2
    ensures ArtifactName(tool, s1, ext)[|ArtifactName(tool, s1, ext)| - |ext|..] == ext
  {
    var n1, n2 := ArtifactName(tool, s1, ext), ArtifactName(tool, s2, ext);
    if n1 == n2 {
      assert |s1| == |s2|;
      assert s1 == n1[|tool| + 1..|tool| + 1 + |s1|];
      assert s2 == n2[|tool| + 1..|tool| + 1 + |s2|];
    }
  }
}

=== FILE: template.dfy ===
/** The argument template the tool-execution screen pre-fills from a tool's
    input schema (htb_mcp_client.py, `_generate_template_from_schema`).

    Every declared property gets one placeholder, chosen by the first rule that
    applies: a pinned auto-exec argument, the selected event's id, the selected
    challenge's id, the schema's `default`, then a placeholder for the declared
    type. Ids are coerced to an integer for `integer` properties and to a string
    otherwise.
 */
module Template {
  import opened JsonValue
  import opened PyText

  /** Property names filled from the selected event's id. */
  const EventIdNames: seq<string> := ["ctf_id", "id", "event_id"]

  /** Property names filled from the selected challenge's id. */
  const ChallengeIdNames: seq<string> := ["challenge_id", "id"]

  /** What the generator reads besides the schema: the selected event and
      challenge (`Null` when nothing is selected) and the auto-exec arguments
      an action pins. */
  datatype Context = Context(event: Json, challenge: Json, overrides: Fields)

  /** The property's declared `type`, `"string"` when it declares none. */
  function DeclaredType(details: Fields): Json {
    GetOr(details, "type", Str("string"))
  }

  /** An id as the template stores it: `int(id)` (0 when that raises) for an
      `integer` property, `str(id)` for any other. */
  function CoerceId(id: Json, propType: Json): Json {
    if propType == Str("integer") then Int(IntOrZero(id)) else Str(Show(id))
  }

  /** The placeholder for a declared type when no other rule applies. */
  function TypePlaceholder(propType: Json): Json {
    if propType == Str("string") then Str("<string>")
    else if propType == Str("integer") then Int(0)
    else if propType == Str("number") then Num(0.0)
    else if propType == Str("boolean") then Bool(false)
    else if propType == Str("array") then Arr([])
    else if propType == Str("object") then Obj([])
    else Str("<value>")
  }

  /** The guard `selected and name in names and "id" in selected` followed by
      `selected["id"]`: `Ok(None)` when the rule does not fire, `Ok(Some(id))`
      when it does, and `Raise` when a selection that is not a dict makes the
      membership test or the subscript raise. */
  function SelectedId(selected: Json, name: string, names: seq<string>): Result<Option<Json>> {
    if !Truthy(selected) || name !in names then Ok(None)
    else match selected
      case Obj(fields) => Ok(Get(fields, "id"))
      case Arr(items) => if Str("id") in items then Raise("TypeError") else Ok(None)
      case Str(s) => if IsInfix("id", s) then Raise("TypeError") else Ok(None)
      case _ => Raise("TypeError")
  }

  /** The value the template gets for one property. It raises only when a
      selection is neither nothing nor a dict, and with neither a pinned
      argument nor a `default` an `integer` property gets an integer. */
  function Placeholder(name: string, details: Fields, ctx: Context): (r: Result<Json>)
    ensures WellFormedSelection(ctx.event) && WellFormedSelection(ctx.challenge) ==> r.Ok?
    ensures (r.Ok? && !HasKey(ctx.overrides, name) && !HasKey(details, "default")
             && DeclaredType(details) == Str("integer")) ==> r.value.Int?
  {
    var propType := DeclaredType(details);
    if HasKey(ctx.overrides, name) then Ok(GetOr(ctx.overrides, name, Null))
    else match SelectedId(ctx.event, name, EventIdNames)
      case Raise(e) => Raise(e)
      case Ok(Some(id)) => Ok(CoerceId(id, propType))
      case Ok(None) =>
        match SelectedId(ctx.challenge, name, ChallengeIdNames)
        case Raise(e) => Raise(e)
        case Ok(Some(id)) => Ok(CoerceId(id, propType))
        case Ok(None) =>
          match Get(details, "default")
          case Some(d) => Ok(d)
          case None => Ok(TypePlaceholder(propType))
  }

  /** The loop over `properties.items()`; a property description that is not a
      dict makes `.get` raise AttributeError. */
  function FillProperties(props: Fields, ctx: Context): Result<Fields> {
    if |props| == 0 then Ok([])
    else match props[0].1
      case Obj(details) =>
        (match Placeholder(props[0].0, details, ctx)
         case Raise(e) => Raise(e)
         case Ok(v) =>
           match FillProperties(props[1..], ctx)
           case Raise(e) => Raise(e)
           case Ok(rest) => Ok([(props[0].0, v)] + rest))
      case _ => Raise("AttributeError")
  }

  /** The template for a tool whose input schema is `schema` (`None` when the
      tool has none). A schema without `properties` always gives `{}`, and a
      template holds exactly the declared property names, in schema order. */
  function Generate(schema: Option<Fields>, ctx: Context): (r: Result<Fields>)
    ensures schema.None? || Get(schema.value, "properties").None? ==> r == Ok([])
    ensures r.Ok? ==> Keys(r.value) == DeclaredNames(schema)
  {
    match schema
    case None => Ok([])
    case Some(s) =>
      match Get(s, "properties")
      case None => Ok([])
      case Some(Obj(props)) => FillShape(props, ctx); FillProperties(props, ctx)
      case Some(_) => Raise("AttributeError")
  }

  /** The property names a schema declares, in order; none when it has no
      `properties` dict. */
  function DeclaredNames(schema: Option<Fields>): seq<string> {
    match schema
    case None => []
    case Some(s) =>
      match Get(s, "properties")
      case Some(Obj(props)) => Keys(props)
      case _ => []
  }

  lemma {:induction false} FillShape(props: Fields, ctx: Context)
    ensures FillProperties(props, ctx).Ok? ==>
              && Keys(FillProperties(props, ctx).value) == Keys(props)
              && forall i :: 0 <= i < |props| ==>
                   && props[i].1.Obj?
                   && Placeholder(props[i].0, props[i].1.fields, ctx)
                      == Ok(FillProperties(props, ctx).value[i].1)
  {
    if |props| > 0 && FillProperties(props, ctx).Ok? {
      FillShape(props[1..], ctx);
      var t := FillProperties(props, ctx).value;
      var rest := FillProperties(props[1..], ctx).value;
      assert t == [(props[0].0, t[0].1)] + rest;
      assert Keys(t) == [props[0].0] + Keys(rest);
      assert Keys(props) == [props[0].0] + Keys(props[1..]);
      forall i | 1 <= i < |props|
        ensures props[i].1.Obj? && Placeholder(props[i].0, props[i].1.fields, ctx) == Ok(t[i].1)
      {
        assert props[i] == props[1..][i - 1] && t[i] == rest[i - 1];
      }
    }
  }

  /** A template has exactly the declared property names, in schema order,
      one value each; a schema without `properties` gives the empty object.
      Each value is the placeholder chosen for that property. */
  lemma TemplateShape(schema: Option<Fields>, ctx: Context)
    ensures Generate(schema, ctx).Ok? ==> Keys(Generate(schema, ctx).value) == DeclaredNames(schema)
    ensures schema.None? || Get(schema.value, "properties").None? ==> Generate(schema, ctx) == Ok([])
    ensures DeclaredNames(schema) == [] && Generate(schema, ctx).Ok? ==> Generate(schema, ctx).value == []
    ensures Generate(schema, ctx).Ok? && schema.Some? && Get(schema.value, "properties").Some? ==>
              var props := Get(schema.value, "properties").value;
              && props.Obj?
              && forall i :: 0 <= i < |props.fields| ==>
                   && props.fields[i].1.Obj?
                   && Placeholder(props.fields[i].0, props.fields[i].1.fields, ctx)
                      == Ok(Generate(schema, ctx).value[i].1)
  {
    if schema.Some? {
      match Get(schema.value, "properties")
      case Some(Obj(props)) => FillShape(props, ctx);
      case _ =>
    }
  }

  lemma {:induction false} FillRaisesOnMalformed(props: Fields, ctx: Context, i: nat)
    requires i < |props| && !props[i].1.Obj?
    ensures FillProperties(props, ctx).Raise?
  {
    if i > 0 && props[0].1.Obj? {
      FillRaisesOnMalformed(props[1..], ctx, i - 1);
    }
  }

  /** A property description that is not a dict makes generation raise. */
  lemma TemplateRaisesOnMalformedProperty(schema: Fields, ctx: Context, props: Fields, i: nat)
    requires Get(schema, "properties") == Some(Obj(props))
    requires i < |props| && !props[i].1.Obj?
    ensures Generate(Some(schema), ctx).Raise?
  {
    FillRaisesOnMalformed(props, ctx, i);
  }

  /** A selection the template can read without raising: nothing, or a
      dict. */
  predicate WellFormedSelection(j: Json) {
    j.Null? || j.Obj?
  }

  lemma {:induction false} FillSucceeds(props: Fields, ctx: Context)
    requires forall i :: 0 <= i < |props| ==> props[i].1.Obj?
    requires WellFormedSelection(ctx.event) && WellFormedSelection(ctx.challenge)
    ensures FillProperties(props, ctx).Ok?
  {
    if |props| > 0 {
      FillSucceeds(props[1..], ctx);
    }
  }

  /** With well-formed property descriptions and selections, generation
      never raises. */
  lemma TemplateSucceeds(schema: Option<Fields>, ctx: Context)
    requires schema.Some? && Get(schema.value, "properties").Some? ==>
               && Get(schema.value, "properties").value.Obj?
               && forall i :: 0 <= i < |Get(schema.value, "properties").value.fields| ==>
                    Get(schema.value, "properties").value.fields[i].1.Obj?
    requires WellFormedSelection(ctx.event) && WellFormedSelection(ctx.challenge)
    ensures Generate(schema, ctx).Ok?
  {
    if schema.Some? && Get(schema.value, "properties").Some? {
      FillSucceeds(Get(schema.value, "properties").value.fields, ctx);
    }
  }

  /** The `required` list has no effect on the template. */
  lemma RequiredIgnored(schema: Fields, required: Json, ctx: Context)
    ensures Generate(Some(SetKey(schema, "required", required)), ctx) == Generate(Some(schema), ctx)
  {
  }

  /** First-match precedence: a pinned argument wins outright; otherwise the
      event rule, then the challenge rule, then `default`, then the type
      placeholder, each consulted only when every earlier one did not fire. */
  lemma Precedence(name: string, details: Fields, ctx: Context)
    ensures HasKey(ctx.overrides, name) ==>
              Placeholder(name, details, ctx) == Ok(GetOr(ctx.overrides, name, Null))
    ensures !HasKey(ctx.overrides, name) && ctx.event.Obj? && |ctx.event.fields| > 0
            && name in EventIdNames && HasKey(ctx.event.fields, "id") ==>
              Placeholder(name, details, ctx)
              == Ok(CoerceId(GetOr(ctx.event.fields, "id", Null), DeclaredType(details)))
    ensures !HasKey(ctx.overrides, name) && SelectedId(ctx.event, name, EventIdNames) == Ok(None)
            && ctx.challenge.Obj? && |ctx.challenge.fields| > 0
            && name in ChallengeIdNames && HasKey(ctx.challenge.fields, "id") ==>
              Placeholder(name, details, ctx)
              == Ok(CoerceId(GetOr(ctx.challenge.fields, "id", Null), DeclaredType(details)))
    ensures !HasKey(ctx.overrides, name) && SelectedId(ctx.event, name, EventIdNames) == Ok(None)
            && SelectedId(ctx.challenge, name, ChallengeIdNames) == Ok(None) ==>
              Placeholder(name, details, ctx)
              == Ok(GetOr(details, "default", TypePlaceholder(DeclaredType(details))))
  {
  }

  /** A property named `id` takes the event's id whenever the selected event
      has one, whatever challenge is selected. */
  lemma IdPrefersEvent(details: Fields, ctx: Context, otherChallenge: Json)
    requires !HasKey(ctx.overrides, "id")
    requires ctx.event.Obj? && HasKey(ctx.event.fields, "id")
    ensures Placeholder("id", details, ctx) == Placeholder("id", details, ctx.(challenge := otherChallenge))
    ensures Placeholder("id", details, ctx)
            == Ok(CoerceId(GetOr(ctx.event.fields, "id", Null), DeclaredType(details)))
  {
    assert "id" in EventIdNames;
  }

  /** The event and challenge rules coerce an id the same way: for a property
      both rules cover, selecting an entity as the event or as the challenge
      gives the same placeholder. */
  lemma EventAndChallengeAgree(details: Fields, entity: Fields, overrides: Fields)
    requires |entity| > 0 && HasKey(entity, "id")
    ensures Placeholder("id", details, Context(Obj(entity), Null, overrides))
            == Placeholder("id", details, Context(Null, Obj(entity), overrides))
  {
    assert "id" in EventIdNames && "id" in ChallengeIdNames;
  }

  /** When neither a pinned argument nor a `default` supplies the value, it
      has the JSON kind its declared type names: an `integer` property gets an
      integer, a `string` property a string, whichever rule fired. */
  lemma PlaceholderMatchesType(name: string, details: Fields, ctx: Context)
    requires !HasKey(ctx.overrides, name) && !HasKey(details, "default")
    requires Placeholder(name, details, ctx).Ok?
    ensures DeclaredType(details) == Str("integer") ==> Placeholder(name, details, ctx).value.Int?
    ensures DeclaredType(details) == Str("string") ==> Placeholder(name, details, ctx).value.Str?
  {
  }

  /** The type placeholders: a property that declares no `type` counts as a
      string, and each of the six JSON Schema type names gets an empty value
      of that kind. */
  lemma TypePlaceholderTable(details: Fields)
    ensures !HasKey(details, "type") ==> DeclaredType(details) == Str("string")
    ensures TypePlaceholder(Str("string")) == Str("<string>")
    ensures TypePlaceholder(Str("integer")) == Int(0)
    ensures TypePlaceholder(Str("number")) == Num(0.0)
    ensures TypePlaceholder(Str("boolean")) == Bool(false)
    ensures TypePlaceholder(Str("array")) == Arr([])
    ensures TypePlaceholder(Str("object")) == Obj([])
  {
  }

  /** Every other declared type, and a `type` that is not a string at all,
      gets `"<value>"`. */
  lemma TypePlaceholderFallback(t: Json)
    requires !t.Str? || t.s !in ["string", "integer", "number", "boolean", "array", "object"]
    ensures TypePlaceholder(t) == Str("<value>")
  {
  }

  /** An integer property filled from an id that prints as an integer gets
      that integer back, any id text `int()` accepts gets the integer it
      denotes, one whose id is no integer text gets 0, and a boolean id gets 1
      or 0; a property of any other declared type gets `str(id)` for every id. */
  lemma IntegerIdCoercion(n: int, s: string, id: Json, t: Json, b: bool)
    ensures CoerceId(Str(IntToString(n)), Str("integer")) == Int(n)
    ensures CoerceId(Int(n), Str("integer")) == Int(n)
    ensures ParseInt(s).Some? ==> CoerceId(Str(s), Str("integer")) == Int(ParseInt(s).value)
    ensures ParseInt(s).None? ==> CoerceId(Str(s), Str("integer")) == Int(0)
    ensures CoerceId(Bool(b), Str("integer")) == Int(if b then 1 else 0)
    ensures CoerceId(Int(n), Str("string")) == Str(IntToString(n))
    ensures t != Str("integer") ==> CoerceId(id, t) == Str(Show(id))
  {
    IntRoundTrip(n);
  }

  /** A schema with a single property yields a template holding exactly that
      property and its placeholder. */
  lemma SinglePropertyTemplate(name: string, details: Fields, ctx: Context)
    requires Placeholder(name, details, ctx).Ok?
    ensures Generate(Some([("properties", Obj([(name, Obj(details))]))]), ctx)
            == Ok([(name, Placeholder(name, details, ctx).value)])
  {
    var props := [(name, Obj(details))];
    var schema := [("properties", Obj(props))];
    assert Get(schema, "properties") == Some(Obj(props));
    assert props[1..] == [];
    assert FillProperties(props[1..], ctx) == Ok([]);
    var v := Placeholder(name, details, ctx).value;
    assert [(name, v)] + [] == [(name, v)];
    assert FillProperties(props, ctx) == Ok([(name, v)]);
  }

  /** The schema `{ctf_id: integer}` the examples below use. */
  const CtfIdSchema: Fields := [("properties", Obj([("ctf_id", Obj([("type", Str("integer"))]))]))]

  /** A `ctf_id: integer` property with a selected event whose id is the text
      "42" gets the integer 42. */
  lemma CtfIdFromDigits(extra: Fields)
    ensures Generate(Some(CtfIdSchema), Context(Obj([("id", Str("42"))] + extra), Null, []))
            == Ok([("ctf_id", Int(42))])
  {
    var details := [("type", Str("integer"))];
    assert DeclaredType(details) == Str("integer");
    IntRoundTrip(42);
    assert IntToString(42) == "42";
    var event := [("id", Str("42"))] + extra;
    assert Get(event, "id") == Some(Str("42")) by { assert event[0] == ("id", Str("42")); }
    assert Placeholder("ctf_id", details, Context(Obj(event), Null, [])) == Ok(Int(42));
    SinglePropertyTemplate("ctf_id", details, Context(Obj(event), Null, []));
  }

  /** The same property with an event id "abc", which `int()` rejects, gets 0. */
  lemma CtfIdFromText(extra: Fields)
    ensures Generate(Some(CtfIdSchema), Context(Obj([("id", Str("abc"))] + extra), Null, []))
            == Ok([("ctf_id", Int(0))])
  {
    var details := [("type", Str("integer"))];
    assert DeclaredType(details) == Str("integer");
    assert ParseInt("abc").None? by { assert !IsDigit('a'); }
    var event := [("id", Str("abc"))] + extra;
    assert Get(event, "id") == Some(Str("abc")) by { assert event[0] == ("id", Str("abc")); }
    assert Placeholder("ctf_id", details, Context(Obj(event), Null, [])) == Ok(Int(0));
    SinglePropertyTemplate("ctf_id", details, Context(Obj(event), Null, []));
  }
}
